=== FILE: README.md ===
# Moneris XML adapter: request builders and reply reading, in Dafny

This project models the message layer of the Omnipay Moneris gateway adapter.

- **Purchase.** Builds a `request` document for a purchase. It validates the parameters, then
  dispatches on the payment method: `payment_profile` emits `res_purchase_cc`, `card` emits
  `purchase`, and any other method is an error. The result is returned as one line.
- **Refund.** Parses the transaction reference, an earlier reply kept as XML text, and copies
  three of its receipt fields into a `refund`.
- **Void.** The same as refund, but it emits a zero-amount `completion`.
- **Replies.** A gateway reply is read through its `receipt` child by:
  - seven accessors;
  - a three-tier success rule;
  - a single-line `getData()`.
- **Sending.** The shared request layer holds:
  - the memoised endpoint;
  - the parameter getter/setter pairs;
  - `sendData`, which sends a body only for non-empty data and falls back to a fixed text when
    the reply does not parse.

## How it is modelled

- **XML** (`xml.dfy`) is a concrete slice of the format:
  - elements carry a name, their joined character content and their child elements;
  - a document has a `<?...?>` declaration;
  - text uses the escapes `&amp;`, `&lt;` and `&gt;`.

  `Serialize` stands in for SimpleXML's `asXML()` on this slice (see "Left out" for where the
  two differ). `ParseDocument` likewise stands in for
  `simplexml_load_string` on this slice, with `None` for text that does not parse. The round trip is proved,
  not assumed. The single-line form of any well-formed document parses back to that document
  with line feeds deleted from its text (`Xml.ParseStrippedDocument`).
- **Parameters** are a typed record (`AbstractRequest.Parameters`), not a string-keyed bag.
  - The amount is in minor units and is written with two decimals.
  - The card is an opaque value that records whether it passes its own validation.
- **Validation** (`validation.dfy`) gives assumed rules for the inherited `validate`, which is
  not part of this model:
  - the order number has 1 to 50 characters;
  - the crypt type is 1 to 7;
  - the amount is positive;
  - the description is optional, with at most 20 characters;
  - every other named parameter must be present;
  - a card must also pass its own check.

  The first failing field, in the order given, raises the error. The purchase tests pin only
  part of this: missing fields, an empty order number, crypt type 0, amount -5 and a
  22-character description are rejected, and a request without a description is accepted.
  The bounds 50, 7 and 20 are assumptions (see "Left out").
- **Builders** return `Result<Xml.Document, Validation.Error>`. `GetData` serialises the
  document and removes line feeds:
  - purchase and refund delete them;
  - void replaces each one with a space.
- **Replies** are `Response.ResponseData`: a parsed document, the fallback `resptext` of a
  reply that does not parse, or `false` for an empty reply (`Response.NoDocument`).
  - Every accessor reads the first `receipt` child of the root and then that receipt's first
    child of the given name. It gives null when either is missing, and always for the
    fallback and for `false`.
  - `getData()` gives the parsed reply as one line of XML. It returns the fallback array and
    `false` as they are, because neither can be serialised.
  - PHP's `(int)` cast of the response code is `Text.PhpInt`. It skips leading whitespace, reads
    a sign, then a decimal number with an optional fraction and exponent, and truncates toward
    zero. It gives 0 when no number leads.
- **Sending** is a pure function (`Send.SendData`). It returns three things:
  - the HTTP call that would be made (method, URL, headers, optional body);
  - the response built from the reply text, which is an input;
  - the request with its endpoint cache filled.

Reading the source closely gave four decisions:

- **A `<receipt>` root is unsuccessful.** The source reads `$data->receipt`, a child of the
  root element. So a reply whose root element is itself `<receipt>` has no receipt: every
  accessor is null and the reply is unsuccessful. The model follows the code
  (`Response.NoReceiptChild`).
- **Parse failure is an error.** When `simplexml_load_string` fails to parse a transaction
  reference, the builder raises "Invalid transaction reference". This relies on the host
  turning the parse warning into an exception, as the void test expects.
- **The empty string loads as `false`.** libxml2 2.9 refuses an empty buffer without a
  warning, so `simplexml_load_string('')` returns `false` and nothing is caught. An empty
  reference then fails one line later, when `receipt` is read on `false`. The host turns that
  warning into an `ErrorException`, which is not a request error (`Validation.Error.ReceiptOfFalse`).
  An empty reply gives the `false` data described under "Replies" above.
- **Missing receipt fields become empty elements.** A receipt field missing from a reference
  is written as an empty element, because a missing SimpleXML child casts to `""`.

## Model

| member | source | states |
|---|---|---|
| Text.DeleteNewlines | src/Message/PurchaseRequest.php:99 | the result holds no line feed, uses only characters of the input, is no longer than it, and is the input itself when it has none; `Text.DeleteNewlinesChar` and `Text.DeleteNewlinesAppend` fix it exactly |
| Text.DeleteNewlinesAppend | src/Message/PurchaseRequest.php:99 | deleting line feeds works piecewise: the result for `a + b` is the result for `a` followed by the result for `b` |
| Text.DeleteNewlinesChar | src/Message/PurchaseRequest.php:99 | a line feed is deleted and every other character is kept |
| Text.DeleteNewlinesMultiset | src/Message/PurchaseRequest.php:99 | the result holds every character of the input other than the line feed, each as often as the input does |
| Text.ReplaceNewlines | src/Message/VoidRequest.php:35 | same length as the input; position by position a line feed becomes a space and every other character is kept; no line feed remains |
| Text.Contains | src/Message/Response.php:14 | `str_contains` holds exactly when the needle occurs at some offset of the haystack |
| Text.PhpInt | src/Message/Response.php:24 | the `(int)` cast of a string of digits is its decimal value, and of a string without any digit is 0 |
| Text.PhpIntOfPrefix | src/Message/Response.php:24 | the cast reads leading digits, with or without a minus sign, and ignores whatever follows that does not continue the number |
| Text.PhpIntOfNonNumber | src/Message/Response.php:24 | a string that, after white space and a sign, starts with neither a digit nor a point and a digit casts to 0 |
| Text.PhpIntOfIntToString | src/Message/Response.php:24 | the `(int)` cast reads back any integer from its decimal text |
| Text.DecimalPrefixNatToString | src/Message/Response.php:24 | reading a number back from a natural number's decimal text gives the number |
| Xml.FindChild | src/Message/Response.php:12 | a property read finds the child at the first index with that name, and nothing when no child has it |
| Xml.UnescapeEscape | src/Message/Response.php:72 | character content escaped by `asXML()` is read back unchanged by the parser |
| Xml.Serialize | src/Message/Response.php:72 | the text starts with the declaration in `<?...?>` and a line feed, ends with a line feed, and holds exactly the rendered root in between |
| Xml.ParseDocument | src/Message/RefundRequest.php:14 | text that is blank or does not start with `<` after white space does not parse; a parsed document has a legal root name and a declaration without `?` |
| Xml.ParseStrippedDocument | src/Message/Response.php:72 | the one-line form of a well-formed document parses back to the document with line feeds deleted from its text |
| Xml.ParsedDocumentWellFormed | src/Message/RefundRequest.php:14 | every document the parser accepts uses legal names and a declaration without `?` |
| AbstractRequest.Set | src/Message/AbstractRequest.php:21-89 | after a setter its getter returns the value set, and every other parameter is unchanged |
| AbstractRequest.SetGetIdentity | src/Message/AbstractRequest.php:41-89 | setting a parameter to the value its getter returns changes nothing |
| AbstractRequest.GetEndpoint | src/Message/AbstractRequest.php:9-14 | the request afterwards caches exactly the value returned and keeps its parameters |
| AbstractRequest.FirstEndpointFollowsTestMode | src/Message/AbstractRequest.php:13 | with nothing cached, test mode gives the sandbox endpoint and otherwise the production endpoint |
| AbstractRequest.CachedEndpointSticks | src/Message/AbstractRequest.php:11 | once a truthy endpoint is cached, later calls return it whatever test mode and the configured endpoints become |
| AbstractRequest.SetEndpoint | src/Message/AbstractRequest.php:16-19 | the cache holds exactly the value given, whatever it held, and the parameters are unchanged |
| AbstractRequest.SetEndpointWins | src/Message/AbstractRequest.php:16-19 | after `setEndpoint(e)` with a truthy `e`, `getEndpoint` returns `e` and leaves the request as it is |
| AbstractRequest.FalsyCacheRecomputed | src/Message/AbstractRequest.php:11-13 | a null, `''` or `'0'` cache is ignored and the endpoint is recomputed from the configuration |
| AbstractRequest.GetEndpointIdempotent | src/Message/AbstractRequest.php:9-14 | a second call returns the same value and leaves the same state as the first |
| AbstractRequest.AmountText | src/Message/PurchaseRequest.php:61 | the amount text is digits, a point and two digits, whose value in minor units is the amount |
| AbstractRequest.RequestDocumentWellFormed | src/Message/PurchaseRequest.php:53-55 | the `request` envelope with `store_id` and `api_token` is well formed whenever its operation element is |
| Validation.Validate | src/Message/PurchaseRequest.php:45 | no error exactly when every named field passes; otherwise the error of the first failing field in the order named |
| Validation.ValidateErrorNamesField | src/Message/PurchaseRequest.php:45 | a failed validation is a missing or invalid parameter among those named, or the card's own error when the card was named |
| Validation.LengthBoundaries | tests/Message/PurchaseRequestTest.php:149-162 | a 22-character description, as in the test, fails; under the assumed bounds 50 characters of order number and 20 of description pass and one more fails; no description passes |
| PurchaseRequest.Validated | src/Message/PurchaseRequest.php:45 | after validation the order number, crypt type and payment method are present and the amount is positive |
| PurchaseRequest.Document | src/Message/PurchaseRequest.php:41-97 | a validation failure comes first; an unknown method is "Invalid payment method"; success exactly for a profile purchase with a card reference or a card purchase with a card that passes its own check; a success is the `request` envelope around one operation |
| PurchaseRequest.GetData | src/Message/PurchaseRequest.php:99 | succeeds and fails with the document, and the text returned holds no line feed |
| PurchaseRequest.ProfilePurchaseShape | src/Message/PurchaseRequest.php:50-62 | a profile purchase sends exactly `data_key`, `order_id`, `cust_id` = `Transaction_` + order number, `amount`, `crypt_type` under `res_purchase_cc`, and no `dynamic_descriptor` |
| PurchaseRequest.CardPurchaseShape | src/Message/PurchaseRequest.php:67-87 | a card purchase sends `pan`, `expdate`, `order_id`, `cust_id`, `amount`, `crypt_type`, `dynamic_descriptor`, then `cvd_info` with indicator 1 and the card's security code |
| PurchaseRequest.DocumentWellFormed | src/Message/PurchaseRequest.php:53-89 | every purchase document is well formed |
| PurchaseRequest.WireFormParses | src/Message/PurchaseRequest.php:89-99 | the line sent parses back to the purchase document with line feeds deleted from its text |
| PurchaseRequest.RequiredFailureIsRequestError | src/Message/PurchaseRequest.php:45 | a failure of the five required fields is a request error naming one of them, raised before dispatch |
| PurchaseRequest.PinnedRejections | tests/Message/PurchaseRequestTest.php:20-162 | a missing payment method, crypt type 0, an empty order number, a negative amount or a 22-character description each fail with a request error |
| PurchaseRequest.UnknownMethodRejected | src/Message/PurchaseRequest.php:94-96 | with valid parameters, a method other than the two known ones fails with "Invalid payment method" and no text |
| PurchaseRequest.BranchRequirements | src/Message/PurchaseRequest.php:49-68 | a profile purchase without a card reference and a card purchase without a card are missing-parameter errors; a card failing its own check raises the card's error, not a request error |
| RefundRequest.Validated | src/Message/RefundRequest.php:11 | after validation the amount is positive and the reference is present |
| RefundRequest.Document | src/Message/RefundRequest.php:9-33 | a validation failure comes first; then success exactly when the reference parses; otherwise "Invalid transaction reference", or for the empty reference the non-request error of reading `receipt` of `false`; a success is the `request` envelope around one operation |
| RefundRequest.GetData | src/Message/RefundRequest.php:33-35 | succeeds and fails with the document, and the text returned holds no line feed |
| RefundRequest.RefundShape | src/Message/RefundRequest.php:19-31 | a refund sends `order_id`, `amount`, `txn_number`, `crypt_type`, `cust_id`, `dynamic_descriptor` `Refund` under `refund`, the three transaction fields taken from the parsed reference's receipt |
| RefundRequest.AmountFromRequest | src/Message/RefundRequest.php:27-29 | two refunds that differ only in their references send the same `amount` and `crypt_type` |
| RefundRequest.UnparseableReference | src/Message/RefundRequest.php:13-19 | with valid parameters, a non-empty reference that does not parse fails with "Invalid transaction reference", a request error; the empty one fails reading `receipt` of `false`, which is not a request error |
| RefundRequest.RequiredBeforeReference | src/Message/RefundRequest.php:11 | without an amount or a reference the refund fails with a missing- or invalid-parameter request error |
| RefundRequest.DocumentWellFormed | src/Message/RefundRequest.php:21-31 | every refund document is well formed |
| RefundRequest.WireFormParses | src/Message/RefundRequest.php:33-35 | the line sent parses back to the refund document with line feeds deleted from its text |
| VoidRequest.Validated | src/Message/VoidRequest.php:11 | validation passes exactly when a reference is present |
| VoidRequest.Document | src/Message/VoidRequest.php:9-33 | a missing reference is a missing-parameter error; otherwise success exactly when the reference parses; a non-empty reference that does not parse is "Invalid transaction reference", and the empty one the error of reading `receipt` of `false` |
| VoidRequest.GetData | src/Message/VoidRequest.php:33-35 | succeeds and fails with the document; the text has the serialised length, a space at each position of a line feed, and every other character in place |
| VoidRequest.CompletionShape | src/Message/VoidRequest.php:19-31 | a void sends `order_id`, `comp_amount` 0.00, `txn_number`, `crypt_type`, `cust_id`, `dynamic_descriptor` `void` under `completion`, the transaction fields taken from the parsed reference |
| VoidRequest.AmountIgnored | src/Message/VoidRequest.php:11-31 | the amount parameter changes neither the outcome nor the text of a void |
| VoidRequest.EmptyReferenceReadsFalse | src/Message/VoidRequest.php:11-19 | the empty reference passes validation, loads as `false` and fails reading `receipt`, with an error that is not a request error |
| VoidRequest.TestReferenceRejected | tests/Message/VoidRequestTest.php:20-35 | the reference `test` fails with "Invalid transaction reference", a request error |
| Reference.Parse | src/Message/RefundRequest.php:13-19 | succeeds exactly when the reference parses, with a well-formed document; the empty reference fails reading `receipt` of `false`, and any other that does not parse with "Invalid transaction reference" |
| Reference.NotMarkupRejected | src/Message/VoidRequest.php:13-19 | a non-empty reference that does not start with `<` after white space is rejected with "Invalid transaction reference"; the empty one with the non-request error of reading `receipt` of `false` |
| Response.CardReference | src/Message/Response.php:32-35 | `getCardReference()` is the receipt's `DataKey` field, null for a fallback reply |
| Response.Code | src/Message/Response.php:37-40 | `getCode()` is the receipt's `ResponseCode` field, null for a fallback reply |
| Response.AuthCode | src/Message/Response.php:42-45 | `getAuthCode()` is the receipt's `AuthCode` field, null for a fallback reply |
| Response.TransactionId | src/Message/Response.php:47-50 | `getTransactionId()` is the receipt's `TransID` field, null for a fallback reply |
| Response.TransactionReference | src/Message/Response.php:52-55 | `getTransactionReference()` is the receipt's `ReferenceNum` field, null for a fallback reply |
| Response.Message | src/Message/Response.php:57-60 | `getMessage()` is the receipt's `Message` field, null for a fallback reply |
| Response.OrderNumber | src/Message/Response.php:62-65 | `getOrderNumber()` is the receipt's `ReceiptId` field, null for a fallback reply |
| Response.IsSuccessful | src/Message/Response.php:9-30 | a fallback reply never succeeds; a success needs a message or a response code; a message containing `APPROVED` always succeeds |
| Response.ReceiptFieldMeaning | src/Message/Response.php:32-65 | a field is null for a fallback reply or a root without `receipt`; otherwise it comes from the first `receipt` child, is present exactly when that receipt has a child of the name, and is the text of the first such child |
| Response.GetData | src/Message/Response.php:67-80 | a parsed reply gives single-line XML with no line feed; a fallback reply is returned raw, and `false` as `false` |
| Response.FalseReadsNothing | src/Message/Response.php:9-80 | a response whose data is `false` is unsuccessful, has every field null, and gives `false` from `getData()` |
| Response.FallbackReadsNothing | src/Message/Response.php:9-65 | a fallback reply is unsuccessful and all seven accessors, the message included, are null |
| Response.NoReceiptChild | src/Message/Response.php:29 | a reply whose root has no `receipt` child has no fields and is unsuccessful |
| Response.ClassificationReadsThreeFields | src/Message/Response.php:9-30 | two replies with the same data key, message and response code classify alike |
| Response.SuccessWithoutMessage | src/Message/Response.php:9-30 | a reply without a message succeeds exactly when its response code is present, is not `null`, and casts to an integer in 0..49 |
| Response.DataKeyTierWins | src/Message/Response.php:11-16 | a data key other than `null` with a message containing `Success` succeeds whatever the response code |
| Response.ApprovedWins | src/Message/Response.php:17-20 | a message containing `APPROVED` succeeds whatever the data key and response code |
| Response.ResponseCodeRange | src/Message/Response.php:21-26 | with neither message tier, a response code written as the integer i succeeds exactly when 0 <= i <= 49 |
| Response.LeadingDigitsCode | src/Message/Response.php:21-26 | with neither message tier, a response code of leading digits followed by text that does not continue the number succeeds exactly when those digits read as at most 49 |
| Response.NonNumericCodeSucceeds | src/Message/Response.php:21-26 | with neither message tier, a present response code other than `null` with no digit at all, the empty one included, casts to 0 and succeeds |
| Response.NullDataKeyFails | src/Message/Response.php:13 | a data key `null` with no `APPROVED` message and no response code is unsuccessful |
| Response.NullResponseCodeFails | src/Message/Response.php:23 | a response code `null` never succeeds through the third tier |
| Response.ReplyRoundTrip | src/Message/Response.php:32-65 | in a reply built from any receipt, every accessor returns that receipt's field, and null for an absent one |
| Send.ReplyData | src/Message/AbstractRequest.php:109-119 | a reply that parses becomes its document; the empty reply becomes `false`; any other reply becomes the fallback text |
| Send.SendData | src/Message/AbstractRequest.php:96-119 | a POST to the endpoint with the XML content type, carrying the data as body exactly when it is not empty, the response of the reply, and the endpoint cache filled with the parameters unchanged |
| Send.SendRequest | src/Message/AbstractRequest.php:96-103 | a build error is raised before any call is made; otherwise the built data is sent |
| Send.UnparseableReplyFallsBack | src/Message/AbstractRequest.php:109-119 | a non-empty unparseable reply gives the fallback `resptext`, returned raw by `getData`; the empty reply gives `false`, returned as `false`; both are unsuccessful with a null message |
| Send.BuiltRequestsCarryBody | src/Message/AbstractRequest.php:102-103 | every request a builder produces is sent with a body |
| Send.EmptyDataHasNoBody | src/Message/AbstractRequest.php:102-107 | `""` and `"0"` are sent without a body; `"00"` is sent as the body |
| RoundTrip.Accessors | src/Message/Response.php:47-65 | the order number, transaction id and transaction reference read `ReceiptId`, `TransID` and `ReferenceNum` |
| RoundTrip.ReceiptFieldStrip | src/Message/Response.php:72 | a receipt field of the single-line reply is the original field with line feeds deleted |
| RoundTrip.KeptReplyParses | src/Message/Response.php:72 | the text `getData()` keeps for a well-formed reply parses back to that reply without line feeds |
| RoundTrip.RefundFromReference | src/Message/RefundRequest.php:14-30 | a refund with a positive amount whose reference parses succeeds and builds its element from the parsed reference |
| RoundTrip.VoidFromReference | src/Message/VoidRequest.php:14-30 | a void whose reference parses succeeds and builds its element from the parsed reference |
| RoundTrip.KeptRefundNamesTransaction | src/Message/RefundRequest.php:14-30 | a refund whose reference is a kept reply sends that reply's order number, transaction id and reference number, with line feeds deleted, as `order_id`, `txn_number`, `cust_id` |
| RoundTrip.KeptVoidNamesTransaction | src/Message/VoidRequest.php:14-30 | a void whose reference is a kept reply sends that reply's order number, transaction id and reference number, with line feeds deleted, as `order_id`, `txn_number`, `cust_id` |
| RoundTrip.ReplyFieldsSurvive | src/Message/RefundRequest.php:19-30 | for any parseable reply whose three fields hold no line feed, a refund and a void built from its kept text send exactly those fields (up to the `&` handling of `addChild`, see "Left out") |

## Left out

- **HTTP I/O.** The HTTP client, the reply body stream and the `info()` logging are I/O. The reply body is an input string, and the call is returned as a value.
- **The inherited `send()` and `validate()`.** They live in the Omnipay base class. Validation follows the assumed rules listed above, and `send()` is `getData()` followed by `sendData`. The base class's camelCase/snake_case key lookup is not reproduced.
- **Other files.** The gateway factory and its configuration defaults, and the create, delete, authorize and capture requests, are not part of this model.
- **The card object.** Its number, expiry formatting and security code are opaque strings. Its expiry and number checks are a single flag.
- **Amount formatting.** The amount is an integer count of minor units. Float and decimal parsing and currency precision are left out.
- **SimpleXML details.** Attributes, namespaces, CDATA, comments, processing instructions other than the declaration, numeric character references, and `&quot;` and `&apos;` in output are left out. On output, `asXML()` of a document without an encoding declaration writes `\r` as `&#13;` and every non-ASCII character as a numeric character reference; `Xml.Escape` writes both literally. So is the handling of `&` in `addChild` values. Element names are limited to letters, digits, `_`, `-`, `.` and `:`, and the rule that a name may not start with a digit, `-` or `.` is not enforced.
- **ParseDocument**: three libxml behaviours are not reproduced.
  - White space before `>` or `/>` in a tag and before `>` in a closing tag (`<a />`, `</a >`) is refused, so such a reply falls back instead of parsing.
  - White space before the `<?...?>` declaration is accepted, where libxml reports a misplaced declaration.
  - The declaration is kept as written and written back verbatim, where `asXML()` rebuilds it from the parsed version and encoding, normalising quotes and white space.
  - Carriage returns are not normalised: a `\r\n` reply keeps its `\r` in the accessors and in `Response.GetData`, where libxml turns `\r\n` and a lone `\r` into a line feed.
- **Reference.Parse** and **Send.ReplyData**: the empty string follows libxml2 2.9, which refuses an empty buffer without a warning. Later releases report an empty document instead, which would send `""` down the parse-failure path.
- **Text between child elements.** An element keeps only its joined text (`Xml.Node`), and `Xml.Render` writes all of it before the children. SimpleXML's `asXML()` keeps each piece of text where it was, so on an indented reply `Response.GetData` moves the text between child elements in front of them.
- **Validation.Validate**: the order number's 50-character limit, the crypt type's upper bound 7 and the description's exact 20-character limit are assumed rules of the inherited `validate`; the tests pin only a 22-character description as too long, crypt type 0, an empty order number and a negative amount.
- **Float edge cases of `(int)`.** Double rounding and infinities are not modelled. The cast is exact decimal arithmetic truncated toward zero.
- **The crypt type's source.** The crypt type is taken as a parameter. Where it comes from in the base class is not modelled.
- **Void round trip.** The void's own output is not parsed back. The reference round trip is stated through the parsed reference instead (`RoundTrip.KeptVoidNamesTransaction`).
- **Response.ReceiptNode** and **Response.ReceiptField**: their own contracts state only the null cases. The full meaning is stated by `Response.ReceiptFieldMeaning`, which keeps those functions cheap to unfold.

=== FILE: abstract_request.dfy ===
/** The state every request carries: its parameters (a typed record rather than a string-keyed
    bag), the memoised endpoint, and the request shape all builders share. */
module AbstractRequest {
  import opened Wrappers
  import Text
  import Xml

  /** The card value object. Its number, expiry (as `ym`) and security code are opaque strings;
      whether it passes its own validation (expiry, number checks) is decided outside this model
      and recorded in `passesOwnValidation`. */
  datatype Card = Card(number: string, expiryYm: string, cvv: string, passesOwnValidation: bool)

  /** The request parameters. `amount` is in minor units (cents). */
  datatype Parameters = Parameters(
    merchantId: Option<string>,
    merchantKey: Option<string>,
    sandboxEndPoint: Option<string>,
    productionEndPoint: Option<string>,
    testMode: bool,
    paymentMethod: Option<string>,
    paymentProfile: Option<string>,
    orderNumber: Option<string>,
    cryptType: Option<int>,
    amount: Option<int>,
    description: Option<string>,
    cardReference: Option<string>,
    card: Option<Card>,
    transactionReference: Option<string>)

  /** A request with no parameter set. */
  const NoParameters: Parameters :=
    Parameters(None, None, None, None, false, None, None, None, None, None, None, None, None, None)

  /** The string parameters this layer declares a getter/setter pair for. */
  datatype Key =
    | MerchantId
    | MerchantKey
    | SandboxEndPoint
    | ProductionEndPoint
    | PaymentMethod
    | PaymentProfile
    | OrderNumber

  /** The getter for `k`. */
  function Get(p: Parameters, k: Key): Option<string> {
    match k
    case MerchantId => p.merchantId
    case MerchantKey => p.merchantKey
    case SandboxEndPoint => p.sandboxEndPoint
    case ProductionEndPoint => p.productionEndPoint
    case PaymentMethod => p.paymentMethod
    case PaymentProfile => p.paymentProfile
    case OrderNumber => p.orderNumber
  }

  /** The parameters no `Key` names are the same in `p` and `q`. */
  predicate SameUnkeyed(p: Parameters, q: Parameters) {
    && p.testMode == q.testMode
    && p.cryptType == q.cryptType
    && p.amount == q.amount
    && p.description == q.description
    && p.cardReference == q.cardReference
    && p.card == q.card
    && p.transactionReference == q.transactionReference
  }

  /** The setter for `k`: its getter then returns `v` and no other parameter changes. */
  function Set(p: Parameters, k: Key, v: Option<string>): (r: Parameters)
    ensures Get(r, k) == v
    ensures forall k' :: k' != k ==> Get(r, k') == Get(p, k')
    ensures SameUnkeyed(r, p)
  {
    match k
    case MerchantId => p.(merchantId := v)
    case MerchantKey => p.(merchantKey := v)
    case SandboxEndPoint => p.(sandboxEndPoint := v)
    case ProductionEndPoint => p.(productionEndPoint := v)
    case PaymentMethod => p.(paymentMethod := v)
    case PaymentProfile => p.(paymentProfile := v)
    case OrderNumber => p.(orderNumber := v)
  }

  /** Two parameter records that agree on every key and every other parameter are equal, so
      `Get` and `SameUnkeyed` see the whole record. */
  lemma GetDeterminesParameters(p: Parameters, q: Parameters)
    requires forall k :: Get(p, k) == Get(q, k)
    requires SameUnkeyed(p, q)
    ensures p == q
  {
    assert Get(p, MerchantId) == Get(q, MerchantId);
    assert Get(p, MerchantKey) == Get(q, MerchantKey);
    assert Get(p, SandboxEndPoint) == Get(q, SandboxEndPoint);
    assert Get(p, ProductionEndPoint) == Get(q, ProductionEndPoint);
    assert Get(p, PaymentMethod) == Get(q, PaymentMethod);
    assert Get(p, PaymentProfile) == Get(q, PaymentProfile);
    assert Get(p, OrderNumber) == Get(q, OrderNumber);
  }

  /** Setting a key to the value it already has changes nothing. */
  lemma SetGetIdentity(p: Parameters, k: Key)
    ensures Set(p, k, Get(p, k)) == p
  {
    var r := Set(p, k, Get(p, k));
    forall k' ensures Get(r, k') == Get(p, k') {
    }
    GetDeterminesParameters(r, p);
  }

  // ---------------------------------------------------------------- endpoint memo

  /** A request object: its parameters and the endpoint field (`null` until first resolved). */
  datatype Request = Request(params: Parameters, endpoint: Option<string>)

  /** PHP truthiness of a nullable string: `null`, `''` and `'0'` are false. */
  predicate Truthy(e: Option<string>) {
    e.Some? && e.value != "" && e.value != "0"
  }

  /** The endpoint the configuration selects: sandbox in test mode, production otherwise. */
  function ConfiguredEndpoint(p: Parameters): Option<string> {
    if p.testMode then p.sandboxEndPoint else p.productionEndPoint
  }

  /** `getEndpoint()`: the cached endpoint when it is truthy, otherwise the configured one,
      which is stored in the cache. Returns the value and the request afterwards. */
  function GetEndpoint(req: Request): (r: (Option<string>, Request))
    ensures r.1.params == req.params && r.1.endpoint == r.0
  {
    if Truthy(req.endpoint) then (req.endpoint, req)
    else
      var e := ConfiguredEndpoint(req.params);
      (e, req.(endpoint := e))
  }

  /** `setEndpoint(e)`: overwrite the cache, whatever it held, and nothing else. */
  function SetEndpoint(req: Request, e: Option<string>): (r: Request)
    ensures r.params == req.params
    ensures r.endpoint == e
  {
    req.(endpoint := e)
  }

  /** With nothing cached, the first call picks sandbox or production by test mode. */
  lemma FirstEndpointFollowsTestMode(p: Parameters)
    ensures GetEndpoint(Request(p, None)).0 == (if p.testMode then p.sandboxEndPoint else p.productionEndPoint)
  {
  }

  /** Once a truthy endpoint is cached, later calls return it whatever the parameters become. */
  lemma CachedEndpointSticks(req: Request, later: Parameters)
    requires Truthy(GetEndpoint(req).0)
    ensures GetEndpoint(GetEndpoint(req).1.(params := later)).0 == GetEndpoint(req).0
  {
  }

  /** `setEndpoint` with a truthy value decides every later `getEndpoint`. */
  lemma SetEndpointWins(req: Request, e: Option<string>)
    requires Truthy(e)
    ensures GetEndpoint(SetEndpoint(req, e)).0 == e
    ensures GetEndpoint(SetEndpoint(req, e)).1 == SetEndpoint(req, e)
  {
  }

  /** A falsy cache is never used: the result is recomputed from the parameters, whatever the
      falsy value was. */
  lemma FalsyCacheRecomputed(req: Request, other: Option<string>)
    requires !Truthy(req.endpoint) && !Truthy(other)
    ensures GetEndpoint(req).0 == GetEndpoint(req.(endpoint := other)).0 == ConfiguredEndpoint(req.params)
  {
  }

  /** Calling `getEndpoint` twice in a row gives the same value and state as calling it once. */
  lemma GetEndpointIdempotent(req: Request)
    ensures GetEndpoint(GetEndpoint(req).1) == GetEndpoint(req)
  {
  }

  // ---------------------------------------------------------------- shared request shape

  /** The declaration every outgoing request is created with. */
  const RequestDeclaration: string := "xml version=\"1.0\" encoding=\"utf-8\""

  /** `addChild(name, value)` with a PHP value that may be `null`: a null writes an empty
      element. */
  function OptionalText(v: Option<string>): string {
    v.GetOr("")
  }

  /** An integer parameter as `addChild` writes it (empty when `null`). */
  function OptionalIntText(v: Option<int>): string {
    match v
    case Some(i) => Text.IntToString(i)
    case None => ""
  }

  /** `getAmount()`: minor units written with two decimals, `"5.00"` for 500. */
  function AmountText(cents: nat): (r: string)
    ensures |r| >= 4 && r[|r| - 3] == '.'
    ensures Text.AllDigits(r[..|r| - 3]) && Text.AllDigits(r[|r| - 2..])
    ensures Text.DigitsValue(r[..|r| - 3]) * 100 + Text.DigitsValue(r[|r| - 2..]) == cents
  {
    var whole := Text.NatToString(cents / 100);
    var fraction := [Text.DigitChar(cents % 100 / 10), Text.DigitChar(cents % 10)];
    var r := whole + "." + fraction;
    assert r[..|r| - 3] == whole;
    assert r[|r| - 2..] == fraction;
    Text.DigitsValueNatToString(cents / 100);
    var tens, units := cents % 100 / 10, cents % 10;
    assert fraction[..1] == [fraction[0]];
    assert [fraction[0]][..0] == [];
    assert Text.DigitsValue([fraction[0]]) == tens;
    assert Text.DigitsValue(fraction) == tens * 10 + units;
    assert tens * 10 + units == cents % 100;
    r
  }

  /** The `request` document every builder emits: `store_id`, `api_token`, then the one
      operation element. */
  function RequestDocument(p: Parameters, operation: Xml.Node): (d: Xml.Document)
    ensures d.root.name == "request" && |d.root.children| == 3
    ensures d.root.children[0] == Xml.Leaf("store_id", OptionalText(p.merchantId))
    ensures d.root.children[1] == Xml.Leaf("api_token", OptionalText(p.merchantKey))
    ensures d.root.children[2] == operation
  {
    Xml.Document(RequestDeclaration,
      Xml.Node("request", "", [Xml.Leaf("store_id", OptionalText(p.merchantId)),
                               Xml.Leaf("api_token", OptionalText(p.merchantKey)),
                               operation]))
  }

  /** The request envelope is well formed whenever its operation element is. */
  lemma RequestDocumentWellFormed(p: Parameters, operation: Xml.Node)
    requires Xml.WellFormed(operation)
    ensures Xml.WellFormedDocument(RequestDocument(p, operation))
  {
    assert Xml.IsName("store_id");
    assert Xml.IsName("api_token");
    assert Xml.IsName("request");
    assert '?' !in RequestDeclaration;
    Xml.LeafWellFormed("store_id", OptionalText(p.merchantId));
    Xml.LeafWellFormed("api_token", OptionalText(p.merchantKey));
    Xml.NodeWellFormed("request", "", RequestDocument(p, operation).root.children);
  }
}

=== FILE: purchase_request.dfy ===
/** `PurchaseRequest::getData`: validate, dispatch on the payment method, build the purchase
    document, and return it as one line. */
module PurchaseRequest {
  import opened Wrappers
  import Text
  import Xml
  import AR = AbstractRequest
  import V = Validation

  /** CVD indicator values the gateway defines; the builder always sends `CvdPresent`. */
  const CvdBypassed: nat := 0
  const CvdPresent: nat := 1
  const CvdIllegible: nat := 2
  const NoCvd: nat := 9

  /** The parameters validated before anything else, in the order they are checked. */
  const RequiredFields: seq<V.Field> :=
    [V.OrderNumber, V.CryptType, V.Amount, V.PaymentMethod, V.Description]

  const ProfileMethod: string := "payment_profile"
  const CardMethod: string := "card"

  /** The customer id sent with a purchase of order `orderNumber`. */
  function CustomerId(orderNumber: string): string {
    "Transaction_" + orderNumber
  }

  /** The required parameters hold, so the values the elements need are present. */
  predicate Validated(p: AR.Parameters)
    ensures Validated(p) ==> && p.orderNumber.Some? && p.cryptType.Some?
                             && p.amount.Some? && p.amount.value > 0 && p.paymentMethod.Some?
  {
    var ok := V.Validate(p, RequiredFields).None?;
    assert ok ==> V.Check(p, RequiredFields[0]).None? && V.Check(p, RequiredFields[1]).None?
                  && V.Check(p, RequiredFields[2]).None? && V.Check(p, RequiredFields[3]).None?;
    ok
  }

  /** The `res_purchase_cc` element of a stored-card purchase. */
  function ProfileElement(p: AR.Parameters): Xml.Node
    requires Validated(p)
  {
    Xml.Node("res_purchase_cc", "", [
      Xml.Leaf("data_key", AR.OptionalText(p.cardReference)),
      Xml.Leaf("order_id", p.orderNumber.value),
      Xml.Leaf("cust_id", CustomerId(p.orderNumber.value)),
      Xml.Leaf("amount", AR.AmountText(p.amount.value)),
      Xml.Leaf("crypt_type", Text.IntToString(p.cryptType.value))])
  }

  /** The `purchase` element of a card purchase, with its nested `cvd_info`. */
  function CardElement(p: AR.Parameters, card: AR.Card): Xml.Node
    requires Validated(p)
  {
    Xml.Node("purchase", "", [
      Xml.Leaf("pan", card.number),
      Xml.Leaf("expdate", card.expiryYm),
      Xml.Leaf("order_id", p.orderNumber.value),
      Xml.Leaf("cust_id", CustomerId(p.orderNumber.value)),
      Xml.Leaf("amount", AR.AmountText(p.amount.value)),
      Xml.Leaf("crypt_type", Text.IntToString(p.cryptType.value)),
      Xml.Leaf("dynamic_descriptor", AR.OptionalText(p.description)),
      Xml.Node("cvd_info", "", [
        Xml.Leaf("cvd_indicator", Text.IntToString(CvdPresent)),
        Xml.Leaf("cvd_value", card.cvv)])])
  }

  /** The purchase document, or the error raised instead. Validation of the five required
      parameters comes first; then `payment_profile` needs a card reference and `card` needs a
      card that passes its own validation; any other method is rejected. */
  function Document(p: AR.Parameters): (r: Result<Xml.Document, V.Error>)
    ensures !Validated(p) ==> r == Failure(V.Validate(p, RequiredFields).value)
    ensures Validated(p) && p.paymentMethod.value != ProfileMethod && p.paymentMethod.value != CardMethod
            ==> r == Failure(V.InvalidPaymentMethod)
    ensures r.Success? <==>
            Validated(p) && ((p.paymentMethod.value == ProfileMethod && p.cardReference.Some?)
                             || (p.paymentMethod.value == CardMethod && p.card.Some? && p.card.value.passesOwnValidation))
    ensures r.Success? ==> |r.value.root.children| == 3 && r.value == AR.RequestDocument(p, r.value.root.children[2])
  {
    if !Validated(p) then Failure(V.Validate(p, RequiredFields).value)
    else
      if p.paymentMethod.value == ProfileMethod then
        match V.Validate(p, [V.CardReference])
        case Some(e) => Failure(e)
        case None => Success(AR.RequestDocument(p, ProfileElement(p)))
      else if p.paymentMethod.value == CardMethod then
        match V.Validate(p, [V.Card])
        case Some(e) => Failure(e)
        case None => Success(AR.RequestDocument(p, CardElement(p, p.card.value)))
      else Failure(V.InvalidPaymentMethod)
  }

  /** `getData()`: the document serialized and with every line feed deleted. */
  function GetData(p: AR.Parameters): (r: Result<string, V.Error>)
    ensures r.Success? <==> Document(p).Success?
    ensures r.Failure? ==> r.error == Document(p).error
    ensures r.Success? ==> '\n' !in r.value
  {
    match Document(p)
    case Failure(e) => Failure(e)
    case Success(d) => Success(Text.DeleteNewlines(Xml.Serialize(d)))
  }

  /** The operation element of a successful purchase. */
  function Operation(p: AR.Parameters): Xml.Node
    requires Document(p).Success?
  {
    Document(p).value.root.children[2]
  }

  /** A stored-card purchase sends exactly `data_key`, `order_id`, `cust_id`, `amount`,
      `crypt_type`, in that order, under `res_purchase_cc`; no `dynamic_descriptor`. */
  lemma ProfilePurchaseShape(p: AR.Parameters)
    requires Document(p).Success? && p.paymentMethod == Some(ProfileMethod)
    ensures var op := Operation(p);
            && op.name == "res_purchase_cc"
            && op.children == [
                 Xml.Leaf("data_key", p.cardReference.value),
                 Xml.Leaf("order_id", p.orderNumber.value),
                 Xml.Leaf("cust_id", "Transaction_" + p.orderNumber.value),
                 Xml.Leaf("amount", AR.AmountText(p.amount.value)),
                 Xml.Leaf("crypt_type", Text.IntToString(p.cryptType.value))]
            && Xml.FindChild(op.children, "dynamic_descriptor").None?
  {
  }

  /** A card purchase sends `pan`, `expdate`, `order_id`, `cust_id`, `amount`, `crypt_type`,
      `dynamic_descriptor` (the description, empty when absent) and `cvd_info`, in that order;
      `cvd_info` holds indicator 1 and the card's security code. */
  lemma CardPurchaseShape(p: AR.Parameters)
    requires Document(p).Success? && p.paymentMethod == Some(CardMethod)
    ensures var op := Operation(p);
            var card := p.card.value;
            && op.name == "purchase"
            && op.children == [
                 Xml.Leaf("pan", card.number),
                 Xml.Leaf("expdate", card.expiryYm),
                 Xml.Leaf("order_id", p.orderNumber.value),
                 Xml.Leaf("cust_id", "Transaction_" + p.orderNumber.value),
                 Xml.Leaf("amount", AR.AmountText(p.amount.value)),
                 Xml.Leaf("crypt_type", Text.IntToString(p.cryptType.value)),
                 Xml.Leaf("dynamic_descriptor", p.description.GetOr("")),
                 Xml.Node("cvd_info", "", [Xml.Leaf("cvd_indicator", "1"), Xml.Leaf("cvd_value", card.cvv)])]
  {
  }

  /** The element names a purchase uses are legal names. */
  lemma ElementNames()
    ensures Xml.IsName("res_purchase_cc") && Xml.IsName("purchase") && Xml.IsName("cvd_info")
    ensures Xml.IsName("data_key") && Xml.IsName("order_id") && Xml.IsName("cust_id")
    ensures Xml.IsName("amount") && Xml.IsName("crypt_type") && Xml.IsName("dynamic_descriptor")
    ensures Xml.IsName("pan") && Xml.IsName("expdate") && Xml.IsName("cvd_indicator") && Xml.IsName("cvd_value")
  {
    OuterNames();
    FieldNames();
  }

  lemma OuterNames()
    ensures Xml.IsName("res_purchase_cc") && Xml.IsName("purchase") && Xml.IsName("cvd_info")
    ensures Xml.IsName("data_key") && Xml.IsName("order_id") && Xml.IsName("cust_id")
  {
  }

  lemma FieldNames()
    ensures Xml.IsName("amount") && Xml.IsName("crypt_type") && Xml.IsName("dynamic_descriptor")
    ensures Xml.IsName("pan") && Xml.IsName("expdate") && Xml.IsName("cvd_indicator") && Xml.IsName("cvd_value")
  {
  }

  lemma ProfileElementWellFormed(p: AR.Parameters)
    requires Validated(p)
    ensures Xml.WellFormed(ProfileElement(p))
  {
    var kids := ProfileElement(p).children;
    ElementNames();
    forall i | 0 <= i < |kids| ensures Xml.WellFormed(kids[i]) {
      Xml.LeafWellFormed(kids[i].name, kids[i].text);
    }
    Xml.NodeWellFormed("res_purchase_cc", "", kids);
  }

  lemma CardElementWellFormed(p: AR.Parameters, card: AR.Card)
    requires Validated(p)
    ensures Xml.WellFormed(CardElement(p, card))
  {
    var kids := CardElement(p, card).children;
    var cvd := kids[7];
    ElementNames();
    Xml.LeafWellFormed("cvd_indicator", cvd.children[0].text);
    Xml.LeafWellFormed("cvd_value", cvd.children[1].text);
    Xml.NodeWellFormed("cvd_info", "", cvd.children);
    forall i | 0 <= i < 7 ensures Xml.WellFormed(kids[i]) {
      Xml.LeafWellFormed(kids[i].name, kids[i].text);
    }
    Xml.NodeWellFormed("purchase", "", kids);
  }

  /** Every purchase document uses legal element names and the envelope's declaration. */
  lemma DocumentWellFormed(p: AR.Parameters)
    requires Document(p).Success?
    ensures Xml.WellFormedDocument(Document(p).value)
  {
    if p.paymentMethod.value == ProfileMethod {
      ProfileElementWellFormed(p);
      AR.RequestDocumentWellFormed(p, ProfileElement(p));
    } else {
      CardElementWellFormed(p, p.card.value);
      AR.RequestDocumentWellFormed(p, CardElement(p, p.card.value));
    }
  }

  /** The line sent on the wire parses back to the purchase document, with line feeds deleted
      from its text. */
  lemma WireFormParses(p: AR.Parameters)
    requires GetData(p).Success?
    ensures Xml.ParseDocument(GetData(p).value) == Some(Xml.StripDocument(Document(p).value))
  {
    DocumentWellFormed(p);
    Xml.ParseStrippedDocument(Document(p).value);
  }

  // ---------------------------------------------------------------- test-pinned rejections

  /** Any failure of the five required parameters is an `InvalidRequestException` raised before
      the payment method is looked at. */
  lemma RequiredFailureIsRequestError(p: AR.Parameters)
    requires !Validated(p)
    ensures GetData(p).Failure? && GetData(p).error.IsInvalidRequest()
    ensures GetData(p).error.field in RequiredFields
  {
    V.ValidateErrorNamesField(p, RequiredFields);
  }

  /** A missing payment method, crypt type 0, an empty order number, a negative amount or a
      22-character description each make the purchase fail with an `InvalidRequestException`. */
  lemma PinnedRejections(p: AR.Parameters)
    requires || p.paymentMethod.None?
             || p.cryptType == Some(0)
             || p.orderNumber == Some("")
             || (p.amount.Some? && p.amount.value < 0)
             || (p.description.Some? && |p.description.value| == 22)
    ensures GetData(p).Failure? && GetData(p).error.IsInvalidRequest()
  {
    var i := if p.orderNumber == Some("") then 0
             else if p.cryptType == Some(0) then 1
             else if p.amount.Some? && p.amount.value < 0 then 2
             else if p.paymentMethod.None? then 3
             else 4;
    assert V.Check(p, RequiredFields[i]).Some?;
    RequiredFailureIsRequestError(p);
  }

  /** With valid parameters, a method other than `payment_profile` or `card` fails with
      "Invalid payment method" and no document. */
  lemma UnknownMethodRejected(p: AR.Parameters)
    requires Validated(p)
    requires p.paymentMethod.value != ProfileMethod && p.paymentMethod.value != CardMethod
    ensures GetData(p) == Failure(V.InvalidPaymentMethod)
    ensures GetData(p).error.Message() == "Invalid payment method"
  {
  }

  /** A stored-card purchase without a card reference, or a card purchase without a card, is an
      `InvalidRequestException`; a card failing its own validation is the card's exception. */
  lemma BranchRequirements(p: AR.Parameters)
    requires Validated(p)
    ensures p.paymentMethod.value == ProfileMethod && p.cardReference.None?
            ==> GetData(p) == Failure(V.MissingParameter(V.CardReference))
    ensures p.paymentMethod.value == CardMethod && p.card.None?
            ==> GetData(p) == Failure(V.MissingParameter(V.Card))
    ensures p.paymentMethod.value == CardMethod && p.card.Some? && !p.card.value.passesOwnValidation
            ==> GetData(p) == Failure(V.InvalidCreditCard) && !GetData(p).error.IsInvalidRequest()
  {
  }
}

=== FILE: reference.dfy ===
/** The transaction reference a refund or a void is built from: an earlier reply, as XML text,
    whose `receipt` child names the transaction to act on. */
module Reference {
  import opened Wrappers
  import Xml
  import AR = AbstractRequest
  import V = Validation
  import Response

  /** `simplexml_load_string($this->getTransactionReference())` and the read of its `receipt`.
      A parse failure warns, and the warning is turned into "Invalid transaction reference". The
      empty reference is refused without a warning and loads as `false`, so the error comes one
      line later, from reading `receipt` of `false`. */
  function Parse(reference: string): (r: Result<Xml.Document, V.Error>)
    ensures r.Success? <==> Xml.ParseDocument(reference).Some?
    ensures reference == [] ==> r == Failure(V.ReceiptOfFalse)
    ensures reference != [] && r.Failure? ==> r.error == V.InvalidTransactionReference
    ensures r.Success? ==> Xml.WellFormedDocument(r.value)
  {
    Xml.ParsedDocumentWellFormed(reference);
    if reference == [] then Failure(V.ReceiptOfFalse)
    else
    match Xml.ParseDocument(reference)
    case None => Failure(V.InvalidTransactionReference)
    case Some(d) => Success(d)
  }

  /** `$transactionReceipt->name` written with `addChild`: the field's text, or an empty element
      when the reference has no receipt or the receipt no such field. */
  function Field(reference: Xml.Document, name: string): string {
    Response.ReceiptField(Response.Parsed(reference), name).GetOr("")
  }

  /** A reference that does not start, after white space, with `<` is not XML, and is rejected
      with "Invalid transaction reference" (in particular the text `test`); the empty reference
      instead fails on reading `receipt` of `false`, which is not a request error. */
  lemma NotMarkupRejected(reference: string)
    requires var t := Xml.SkipSpace(reference); t == [] || t[0] != '<'
    ensures reference != [] ==> Parse(reference) == Failure(V.InvalidTransactionReference)
    ensures reference == [] ==> Parse(reference) == Failure(V.ReceiptOfFalse)
    ensures Parse(reference).error.IsInvalidRequest() <==> reference != []
  {
  }

  lemma TestIsRejected()
    ensures Parse("test") == Failure(V.InvalidTransactionReference)
  {
    NotMarkupRejected("test");
  }
}

=== FILE: refund_request.dfy ===
/** `RefundRequest::getData`: a `refund` of part or all of an earlier transaction, named by its
    reference. */
module RefundRequest {
  import opened Wrappers
  import Text
  import Xml
  import AR = AbstractRequest
  import V = Validation
  import Reference

  /** The parameters validated before the reference is read. */
  const RequiredFields: seq<V.Field> := [V.Amount, V.TransactionReference]

  predicate Validated(p: AR.Parameters)
    ensures Validated(p) ==> p.amount.Some? && p.amount.value > 0 && p.transactionReference.Some?
  {
    var ok := V.Validate(p, RequiredFields).None?;
    assert ok ==> V.Check(p, RequiredFields[0]).None? && V.Check(p, RequiredFields[1]).None?;
    ok
  }

  /** The `refund` element: the transaction named by `reference`, the amount and crypt type
      of this request, and the fixed descriptor `Refund`. */
  function RefundElement(p: AR.Parameters, reference: Xml.Document): Xml.Node
    requires Validated(p)
  {
    Xml.Node("refund", "", [
      Xml.Leaf("order_id", Reference.Field(reference, "ReceiptId")),
      Xml.Leaf("amount", AR.AmountText(p.amount.value)),
      Xml.Leaf("txn_number", Reference.Field(reference, "TransID")),
      Xml.Leaf("crypt_type", AR.OptionalIntText(p.cryptType)),
      Xml.Leaf("cust_id", Reference.Field(reference, "ReferenceNum")),
      Xml.Leaf("dynamic_descriptor", "Refund")])
  }

  /** The refund document, or the error raised instead: a validation error first, then an
      unparseable reference, or the read of `receipt` of `false` for the empty one. */
  function Document(p: AR.Parameters): (r: Result<Xml.Document, V.Error>)
    ensures !Validated(p) ==> r == Failure(V.Validate(p, RequiredFields).value)
    ensures Validated(p) ==> (r.Success? <==> Xml.ParseDocument(p.transactionReference.value).Some?)
    ensures Validated(p) && r.Failure? ==>
              r.error == if p.transactionReference.value == [] then V.ReceiptOfFalse else V.InvalidTransactionReference
    ensures r.Success? ==> |r.value.root.children| == 3 && r.value == AR.RequestDocument(p, r.value.root.children[2])
  {
    if !Validated(p) then Failure(V.Validate(p, RequiredFields).value)
    else
      match Reference.Parse(p.transactionReference.value)
      case Failure(e) => Failure(e)
      case Success(reference) => Success(AR.RequestDocument(p, RefundElement(p, reference)))
  }

  /** `getData()`: the document serialized and with every line feed deleted. */
  function GetData(p: AR.Parameters): (r: Result<string, V.Error>)
    ensures r.Success? <==> Document(p).Success?
    ensures r.Failure? ==> r.error == Document(p).error
    ensures r.Success? ==> '\n' !in r.value
  {
    match Document(p)
    case Failure(e) => Failure(e)
    case Success(d) => Success(Text.DeleteNewlines(Xml.Serialize(d)))
  }

  /** The operation element of a successful refund. */
  function Operation(p: AR.Parameters): Xml.Node
    requires Document(p).Success?
  {
    Document(p).value.root.children[2]
  }

  /** A refund sends `order_id`, `amount`, `txn_number`, `crypt_type`, `cust_id`,
      `dynamic_descriptor`, in that order, under `refund`: the three transaction fields come
      from the receipt of the parsed reference, the amount and crypt type from the request. */
  lemma RefundShape(p: AR.Parameters)
    requires Document(p).Success?
    ensures p.amount.Some? && p.transactionReference.Some?
    ensures Xml.ParseDocument(p.transactionReference.value).Some?
    ensures var reference := Xml.ParseDocument(p.transactionReference.value).value;
            var op := Operation(p);
            && op.name == "refund"
            && op.children == [
                 Xml.Leaf("order_id", Reference.Field(reference, "ReceiptId")),
                 Xml.Leaf("amount", AR.AmountText(p.amount.value)),
                 Xml.Leaf("txn_number", Reference.Field(reference, "TransID")),
                 Xml.Leaf("crypt_type", AR.OptionalIntText(p.cryptType)),
                 Xml.Leaf("cust_id", Reference.Field(reference, "ReferenceNum")),
                 Xml.Leaf("dynamic_descriptor", "Refund")]
  {
  }

  /** With valid parameters and a parseable reference the refund is the `refund` element of the
      parsed reference. */
  lemma Built(p: AR.Parameters)
    requires Validated(p) && Xml.ParseDocument(p.transactionReference.value).Some?
    ensures Document(p) == Success(AR.RequestDocument(p, RefundElement(p, Xml.ParseDocument(p.transactionReference.value).value)))
  {
  }

  /** The amount and crypt type sent do not depend on the reference: two refunds that differ only
      in their (parseable) references send the same `amount` and `crypt_type`. */
  lemma AmountFromRequest(p: AR.Parameters, otherReference: string)
    requires Document(p).Success?
    requires Document(p.(transactionReference := Some(otherReference))).Success?
    ensures var q := p.(transactionReference := Some(otherReference));
            Operation(q).children[1] == Operation(p).children[1]
            && Operation(q).children[3] == Operation(p).children[3]
  {
    var q := p.(transactionReference := Some(otherReference));
    var refP := Xml.ParseDocument(p.transactionReference.value).value;
    var refQ := Xml.ParseDocument(otherReference).value;
    Built(p);
    Built(q);
    assert Operation(p) == RefundElement(p, refP);
    assert Operation(q) == RefundElement(q, refQ);
    var ep, eq := RefundElement(p, refP), RefundElement(q, refQ);
    assert eq.children[1] == ep.children[1] && eq.children[3] == ep.children[3];
  }

  /** With valid parameters, a non-empty reference that does not parse fails with "Invalid
      transaction reference" and no document; the empty one fails with the host's error for
      reading `receipt` of `false`, which is not a request error. */
  lemma UnparseableReference(p: AR.Parameters)
    requires Validated(p) && Xml.ParseDocument(p.transactionReference.value).None?
    ensures p.transactionReference.value != [] ==> GetData(p) == Failure(V.InvalidTransactionReference)
    ensures p.transactionReference.value != [] ==> GetData(p).error.Message() == "Invalid transaction reference"
    ensures p.transactionReference.value == [] ==> GetData(p) == Failure(V.ReceiptOfFalse)
    ensures GetData(p).error.IsInvalidRequest() <==> p.transactionReference.value != []
  {
  }

  /** A refund without an amount or without a reference fails before the reference is read. */
  lemma RequiredBeforeReference(p: AR.Parameters)
    requires p.amount.None? || p.transactionReference.None?
    ensures GetData(p).Failure? && GetData(p).error.IsInvalidRequest()
    ensures GetData(p).error.MissingParameter? || GetData(p).error.InvalidParameter?
  {
    assert V.Check(p, RequiredFields[if p.amount.None? then 0 else 1]).Some?;
    V.ValidateErrorNamesField(p, RequiredFields);
  }

  lemma ElementNames()
    ensures Xml.IsName("refund") && Xml.IsName("order_id") && Xml.IsName("amount") && Xml.IsName("txn_number")
    ensures Xml.IsName("crypt_type") && Xml.IsName("cust_id") && Xml.IsName("dynamic_descriptor")
  {
  }

  lemma RefundElementWellFormed(p: AR.Parameters, reference: Xml.Document)
    requires Validated(p)
    ensures Xml.WellFormed(RefundElement(p, reference))
  {
    var kids := RefundElement(p, reference).children;
    ElementNames();
    forall i | 0 <= i < |kids| ensures Xml.WellFormed(kids[i]) {
      Xml.LeafWellFormed(kids[i].name, kids[i].text);
    }
    Xml.NodeWellFormed("refund", "", kids);
  }

  /** Every refund document uses legal element names and the envelope's declaration. */
  lemma DocumentWellFormed(p: AR.Parameters)
    requires Document(p).Success?
    ensures Xml.WellFormedDocument(Document(p).value)
  {
    var reference := Xml.ParseDocument(p.transactionReference.value).value;
    RefundElementWellFormed(p, reference);
    AR.RequestDocumentWellFormed(p, RefundElement(p, reference));
  }

  /** The line sent on the wire parses back to the refund document, with line feeds deleted
      from its text. */
  lemma WireFormParses(p: AR.Parameters)
    requires GetData(p).Success?
    ensures Xml.ParseDocument(GetData(p).value) == Some(Xml.StripDocument(Document(p).value))
  {
    DocumentWellFormed(p);
    Xml.ParseStrippedDocument(Document(p).value);
  }
}

=== FILE: response.dfy ===
/** `Response`: the reading of a gateway reply. Every question is asked of the `receipt` child
    of the reply's root element; a reply that could not be parsed holds only a fallback text. */
module Response {
  import opened Wrappers
  import Text
  import Xml

  /** What a response holds: the parsed reply document, the `['resptext' => ...]` array built
      when the reply did not parse, or the `false` an empty reply loads as. */
  datatype ResponseData =
    | Parsed(doc: Xml.Document)
    | Fallback(resptext: string)
    | NoDocument

  /** The receipt fields the accessors and the classifier read, each `None` when absent. */
  datatype Receipt = Receipt(
    dataKey: Option<string>,
    message: Option<string>,
    responseCode: Option<string>,
    authCode: Option<string>,
    transId: Option<string>,
    referenceNum: Option<string>,
    receiptId: Option<string>)

  const NoReceipt: Receipt := Receipt(None, None, None, None, None, None, None)

  /** `$data->receipt`: the first child of the root named `receipt`. */
  function ReceiptNode(data: ResponseData): (r: Option<Xml.Node>)
    ensures !data.Parsed? ==> r.None?
  {
    match data
    case Fallback(_) => None
    case NoDocument => None
    case Parsed(d) => Xml.FindChild(d.root.children, "receipt")
  }

  /** `isset($data->receipt->name) ? (string) $data->receipt->name : null`: the character content
      of the first child named `name` of the receipt. */
  function ReceiptField(data: ResponseData, name: string): (r: Option<string>)
    ensures ReceiptNode(data).None? ==> r.None?
  {
    match ReceiptNode(data)
    case None => None
    case Some(receipt) =>
      match Xml.FindChild(receipt.children, name)
      case None => None
      case Some(field) => Some(field.text)
  }

  /** A field is read from the first `receipt` child of the root, and is the text of that
      receipt's first child carrying the name; null when either is missing. */
  lemma ReceiptFieldMeaning(data: ResponseData, name: string)
    ensures !data.Parsed? ==> ReceiptField(data, name).None?
    ensures data.Parsed? && (forall i :: 0 <= i < |data.doc.root.children| ==> data.doc.root.children[i].name != "receipt")
            ==> ReceiptField(data, name).None?
    ensures data.Parsed? && ReceiptNode(data).Some? ==>
              var kids := data.doc.root.children;
              exists k :: 0 <= k < |kids| && kids[k].name == "receipt" && kids[k] == ReceiptNode(data).value
                          && forall j :: 0 <= j < k ==> kids[j].name != "receipt"
    ensures ReceiptNode(data).Some? ==>
              var kids := ReceiptNode(data).value.children;
              var r := ReceiptField(data, name);
              && (r.Some? <==> exists i :: 0 <= i < |kids| && kids[i].name == name)
              && (r.Some? ==> exists i :: 0 <= i < |kids| && kids[i].name == name && kids[i].text == r.value
                                          && forall j :: 0 <= j < i ==> kids[j].name != name)
  {
  }

  /** The seven receipt fields of a reply. */
  function ReceiptOf(data: ResponseData): Receipt {
    Receipt(ReceiptField(data, "DataKey"), ReceiptField(data, "Message"), ReceiptField(data, "ResponseCode"),
            ReceiptField(data, "AuthCode"), ReceiptField(data, "TransID"), ReceiptField(data, "ReferenceNum"),
            ReceiptField(data, "ReceiptId"))
  }

  // ---------------------------------------------------------------- accessors

  /** `getCardReference()`: the receipt's `DataKey`. */
  function CardReference(data: ResponseData): (r: Option<string>)
    ensures r == ReceiptField(data, "DataKey") && (!data.Parsed? ==> r.None?)
  { ReceiptOf(data).dataKey }

  /** `getCode()`: the receipt's `ResponseCode`. */
  function Code(data: ResponseData): (r: Option<string>)
    ensures r == ReceiptField(data, "ResponseCode") && (!data.Parsed? ==> r.None?)
  { ReceiptOf(data).responseCode }

  /** `getAuthCode()`: the receipt's `AuthCode`. */
  function AuthCode(data: ResponseData): (r: Option<string>)
    ensures r == ReceiptField(data, "AuthCode") && (!data.Parsed? ==> r.None?)
  { ReceiptOf(data).authCode }

  /** `getTransactionId()`: the receipt's `TransID`. */
  function TransactionId(data: ResponseData): (r: Option<string>)
    ensures r == ReceiptField(data, "TransID") && (!data.Parsed? ==> r.None?)
  { ReceiptOf(data).transId }

  /** `getTransactionReference()`: the receipt's `ReferenceNum`. */
  function TransactionReference(data: ResponseData): (r: Option<string>)
    ensures r == ReceiptField(data, "ReferenceNum") && (!data.Parsed? ==> r.None?)
  { ReceiptOf(data).referenceNum }

  /** `getMessage()`: the receipt's `Message`, never the fallback text. */
  function Message(data: ResponseData): (r: Option<string>)
    ensures r == ReceiptField(data, "Message") && (!data.Parsed? ==> r.None?)
  { ReceiptOf(data).message }

  /** `getOrderNumber()`: the receipt's `ReceiptId`. */
  function OrderNumber(data: ResponseData): (r: Option<string>)
    ensures r == ReceiptField(data, "ReceiptId") && (!data.Parsed? ==> r.None?)
  { ReceiptOf(data).receiptId }

  // ---------------------------------------------------------------- classification

  /** Tier 1: a stored-card reply, with a data key that is not the text `null` and a message
      mentioning `Success`. */
  predicate DataKeyTier(r: Receipt) {
    && r.dataKey.Some? && r.dataKey.value != "null"
    && r.message.Some? && Text.Contains(r.message.value, "Success")
  }

  /** Tier 2: a message mentioning `APPROVED` (case-sensitive). */
  predicate ApprovedTier(r: Receipt) {
    r.message.Some? && Text.Contains(r.message.value, "APPROVED")
  }

  /** Tier 3: a response code, not the text `null`, whose `(int)` cast lies in 0..49. */
  predicate ResponseCodeTier(r: Receipt) {
    && r.responseCode.Some? && r.responseCode.value != "null"
    && 0 <= Text.PhpInt(r.responseCode.value) <= 49
  }

  /** The tiers tried in order on a receipt; false when none matches. */
  function Classify(r: Receipt): bool {
    if DataKeyTier(r) then true
    else if ApprovedTier(r) then true
    else if ResponseCodeTier(r) then true
    else false
  }

  /** `isSuccessful()`: never for a reply that did not parse or was empty; otherwise only when
      the receipt carries a message or a response code, and always when the message mentions
      `APPROVED`. */
  function IsSuccessful(data: ResponseData): (r: bool)
    ensures !data.Parsed? ==> !r
    ensures r ==> Message(data).Some? || Code(data).Some?
    ensures Message(data).Some? && Text.Contains(Message(data).value, "APPROVED") ==> r
  {
    Classify(ReceiptOf(data))
  }

  // ---------------------------------------------------------------- serialisation

  /** What `getData()` returns: the reply as one line of XML, the raw fallback array, or
      `false`. */
  datatype DataView =
    | XmlText(text: string)
    | Raw(resptext: string)
    | False

  /** `getData()`: `asXML()` with every line feed deleted; neither the fallback array nor
      `false` can be serialised, so each is returned as it is. */
  function GetData(data: ResponseData): (r: DataView)
    ensures data.Parsed? <==> r.XmlText?
    ensures r.XmlText? ==> '\n' !in r.text
    ensures data.Fallback? ==> r == Raw(data.resptext)
    ensures data.NoDocument? <==> r.False?
  {
    match data
    case Parsed(d) => XmlText(Text.DeleteNewlines(Xml.Serialize(d)))
    case Fallback(t) => Raw(t)
    case NoDocument => False
  }

  // ---------------------------------------------------------------- properties

  /** A fallback response is unsuccessful, and every accessor returns null — including the
      message, which does not see the fallback text. */
  lemma FallbackReadsNothing(t: string)
    ensures ReceiptOf(Fallback(t)) == NoReceipt
    ensures !IsSuccessful(Fallback(t))
    ensures Message(Fallback(t)).None? && CardReference(Fallback(t)).None? && Code(Fallback(t)).None?
  {
  }

  /** An empty reply, loaded as `false`, is unsuccessful, every accessor is null, and `getData()`
      gives the `false` back, since `asXML()` cannot be called on it. */
  lemma FalseReadsNothing()
    ensures ReceiptOf(NoDocument) == NoReceipt
    ensures !IsSuccessful(NoDocument)
    ensures GetData(NoDocument) == False
  {
  }

  /** A reply whose root has no `receipt` child reads as no receipt at all and is unsuccessful;
      in particular a reply whose root element is itself `<receipt>`, with no nested `receipt`. */
  lemma NoReceiptChild(d: Xml.Document)
    requires forall i :: 0 <= i < |d.root.children| ==> d.root.children[i].name != "receipt"
    ensures ReceiptOf(Parsed(d)) == NoReceipt
    ensures !IsSuccessful(Parsed(d))
  {
  }

  lemma ClassifyReadsThreeFields(ra: Receipt, rb: Receipt)
    requires ra.dataKey == rb.dataKey && ra.message == rb.message && ra.responseCode == rb.responseCode
    ensures Classify(ra) == Classify(rb)
  {
  }

  /** The classification reads only the data key, the message and the response code. */
  lemma ClassificationReadsThreeFields(a: ResponseData, b: ResponseData)
    requires CardReference(a) == CardReference(b)
    requires Message(a) == Message(b)
    requires Code(a) == Code(b)
    ensures IsSuccessful(a) == IsSuccessful(b)
  {
    ClassifyReadsThreeFields(ReceiptOf(a), ReceiptOf(b));
  }

  /** Success holds exactly when one of the three tiers matches (a helper for the tier lemmas). */
  lemma SuccessIsSomeTier(data: ResponseData)
    ensures IsSuccessful(data) <==>
            var r := ReceiptOf(data);
            DataKeyTier(r) || ApprovedTier(r) || ResponseCodeTier(r)
  {
  }

  /** Without a message neither message tier can apply, so a reply then succeeds exactly when
      its response code is present, is not the text `null`, and casts to an integer in 0..49. */
  lemma SuccessWithoutMessage(data: ResponseData)
    requires Message(data).None?
    ensures IsSuccessful(data) <==>
              Code(data).Some? && Code(data).value != "null" && 0 <= Text.PhpInt(Code(data).value) <= 49
  {
    assert !DataKeyTier(ReceiptOf(data)) && !ApprovedTier(ReceiptOf(data));
  }

  /** Tier 1 succeeds whatever the response code says. */
  lemma DataKeyTierWins(data: ResponseData)
    requires CardReference(data).Some? && CardReference(data).value != "null"
    requires Message(data).Some? && Text.Contains(Message(data).value, "Success")
    ensures IsSuccessful(data)
  {
  }

  /** Tier 2 succeeds whatever the data key and the response code are. */
  lemma ApprovedWins(data: ResponseData)
    requires Message(data).Some? && Text.Contains(Message(data).value, "APPROVED")
    ensures IsSuccessful(data)
  {
  }

  /** When neither message tier applies, a response code written as the integer `i` succeeds
      exactly when 0 <= i <= 49: so 0 and 49 succeed, 50 and -1 fail. */
  lemma ResponseCodeRange(data: ResponseData, i: int)
    requires !DataKeyTier(ReceiptOf(data)) && !ApprovedTier(ReceiptOf(data))
    requires Code(data) == Some(Text.IntToString(i))
    ensures IsSuccessful(data) <==> 0 <= i <= 49
  {
    var r := ReceiptOf(data);
    var code := Text.IntToString(i);
    assert r.responseCode == Some(code);
    assert code != "null" by {
      assert code[0] == '-' || Text.IsDigit(code[0]);
      assert "null"[0] == 'n';
    }
    Text.PhpIntOfIntToString(i);
    assert ResponseCodeTier(r) <==> 0 <= i <= 49;
    assert IsSuccessful(data) == ResponseCodeTier(r);
  }

  /** A response code that starts with digits reads as those digits, whatever follows them:
      when neither message tier applies, `"05"`, `"49 ok"` and `"7abc"` succeed and `"50"` fails. */
  lemma LeadingDigitsCode(data: ResponseData, d: string, t: string)
    requires !DataKeyTier(ReceiptOf(data)) && !ApprovedTier(ReceiptOf(data))
    requires d != [] && Text.AllDigits(d)
    requires t == [] || !(Text.IsDigit(t[0]) || t[0] == '.' || t[0] == 'e' || t[0] == 'E')
    requires Code(data) == Some(d + t)
    ensures IsSuccessful(data) <==> Text.DigitsValue(d) <= 49
  {
    var code := d + t;
    assert code != "null" by {
      assert code[0] == d[0] && Text.IsDigit(code[0]);
      assert "null"[0] == 'n';
    }
    Text.PhpIntOfPrefix(d, t);
    assert IsSuccessful(data) == ResponseCodeTier(ReceiptOf(data));
  }

  /** When neither message tier applies, a response code with no digits at all — empty, as from
      `<ResponseCode/>`, or text such as `"abc"` — casts to 0 and so succeeds; only the text
      `null` is kept out. */
  lemma NonNumericCodeSucceeds(data: ResponseData, code: string)
    requires !DataKeyTier(ReceiptOf(data)) && !ApprovedTier(ReceiptOf(data))
    requires Code(data) == Some(code) && code != "null"
    requires forall i :: 0 <= i < |code| ==> !Text.IsDigit(code[i])
    ensures IsSuccessful(data)
  {
    assert Text.PhpInt(code) == 0;
    assert ResponseCodeTier(ReceiptOf(data));
  }

  /** A data key of `null` with a `Success` message and no other evidence is not a success. */
  lemma NullDataKeyFails(data: ResponseData)
    requires CardReference(data) == Some("null")
    requires Message(data).Some? && !Text.Contains(Message(data).value, "APPROVED")
    requires Code(data).None?
    ensures !IsSuccessful(data)
  {
  }

  /** A response code of `null` never succeeds through tier 3. */
  lemma NullResponseCodeFails(data: ResponseData)
    requires Code(data) == Some("null")
    requires !DataKeyTier(ReceiptOf(data)) && !ApprovedTier(ReceiptOf(data))
    ensures !IsSuccessful(data)
  {
  }

  // ---------------------------------------------------------------- replies built from receipts

  /** The element for a field that is present; nothing for an absent one. */
  function OptionalLeaf(name: string, v: Option<string>): (r: seq<Xml.Node>)
    ensures v.None? ==> r == []
    ensures v.Some? ==> r == [Xml.Leaf(name, v.value)]
  {
    if v.Some? then [Xml.Leaf(name, v.value)] else []
  }

  /** One element per present entry, in order. */
  function Leaves(entries: seq<(string, Option<string>)>): seq<Xml.Node> {
    if entries == [] then [] else OptionalLeaf(entries[0].0, entries[0].1) + Leaves(entries[1..])
  }

  /** The entry's value when it is present and named `name`, `otherwise` if not. */
  function Pick(entry: (string, Option<string>), name: string, otherwise: Option<string>): Option<string> {
    if entry.0 == name && entry.1.Some? then entry.1 else otherwise
  }

  /** The value of the first present entry named `name`. */
  function Lookup(entries: seq<(string, Option<string>)>, name: string): Option<string> {
    if entries == [] then None else Pick(entries[0], name, Lookup(entries[1..], name))
  }

  /** Looking a name up among the elements written for `entries` finds the element of the first
      present entry with that name. */
  lemma {:induction false} FindInLeaves(entries: seq<(string, Option<string>)>, name: string)
    ensures Xml.FindChild(Leaves(entries), name) ==
            (match Lookup(entries, name) case None => None case Some(t) => Some(Xml.Leaf(name, t)))
  {
    if entries != [] {
      FindInLeaves(entries[1..], name);
      var head := OptionalLeaf(entries[0].0, entries[0].1);
      var rest := Leaves(entries[1..]);
      if entries[0].1.Some? {
        assert (head + rest)[0] == Xml.Leaf(entries[0].0, entries[0].1.value);
        assert (head + rest)[1..] == rest;
      } else {
        assert head + rest == rest;
      }
    }
  }

  /** The receipt fields as (element name, value) entries. */
  function Entries(r: Receipt): seq<(string, Option<string>)> {
    [("DataKey", r.dataKey), ("Message", r.message), ("ResponseCode", r.responseCode),
     ("AuthCode", r.authCode), ("TransID", r.transId), ("ReferenceNum", r.referenceNum),
     ("ReceiptId", r.receiptId)]
  }

  lemma LookupEntries(r: Receipt, name: string)
    ensures Lookup(Entries(r), name) ==
      Pick(("DataKey", r.dataKey), name, Pick(("Message", r.message), name,
      Pick(("ResponseCode", r.responseCode), name, Pick(("AuthCode", r.authCode), name,
      Pick(("TransID", r.transId), name, Pick(("ReferenceNum", r.referenceNum), name,
      Pick(("ReceiptId", r.receiptId), name, None)))))))
  {
    var es := Entries(r);
    assert Lookup(es[6..], name) == Pick(es[6], name, Lookup(es[7..], name));
    assert Lookup(es[5..], name) == Pick(es[5], name, Lookup(es[6..], name));
    assert Lookup(es[4..], name) == Pick(es[4], name, Lookup(es[5..], name));
    assert Lookup(es[3..], name) == Pick(es[3], name, Lookup(es[4..], name));
    assert Lookup(es[2..], name) == Pick(es[2], name, Lookup(es[3..], name));
    assert Lookup(es[1..], name) == Pick(es[1], name, Lookup(es[2..], name));
  }

  /** A reply carrying `r`: a `response` root whose `receipt` child holds one element per
      present field. */
  function ReplyDocument(r: Receipt): Xml.Document {
    Xml.Document(Xml.DefaultDeclaration, Xml.Node("response", "", [Xml.Node("receipt", "", Leaves(Entries(r)))]))
  }

  /** Each field of a reply built from `r` reads back as the entry of `r` with that name. */
  lemma ReplyField(r: Receipt, name: string)
    ensures ReceiptField(Parsed(ReplyDocument(r)), name) == Lookup(Entries(r), name)
  {
    var es := Entries(r);
    assert ReceiptNode(Parsed(ReplyDocument(r))) == Some(Xml.Node("receipt", "", Leaves(es)));
    FindInLeaves(es, name);
  }

  lemma ReplyDataKey(r: Receipt)
    ensures ReceiptField(Parsed(ReplyDocument(r)), "DataKey") == r.dataKey
  {
    ReplyField(r, "DataKey");
    LookupEntries(r, "DataKey");
  }

  lemma ReplyMessage(r: Receipt)
    ensures ReceiptField(Parsed(ReplyDocument(r)), "Message") == r.message
  {
    ReplyField(r, "Message");
    LookupEntries(r, "Message");
  }

  lemma ReplyResponseCode(r: Receipt)
    ensures ReceiptField(Parsed(ReplyDocument(r)), "ResponseCode") == r.responseCode
  {
    ReplyField(r, "ResponseCode");
    LookupEntries(r, "ResponseCode");
  }

  lemma ReplyAuthCode(r: Receipt)
    ensures ReceiptField(Parsed(ReplyDocument(r)), "AuthCode") == r.authCode
  {
    ReplyField(r, "AuthCode");
    LookupEntries(r, "AuthCode");
  }

  lemma ReplyTransID(r: Receipt)
    ensures ReceiptField(Parsed(ReplyDocument(r)), "TransID") == r.transId
  {
    ReplyField(r, "TransID");
    LookupEntries(r, "TransID");
  }

  lemma ReplyReferenceNum(r: Receipt)
    ensures ReceiptField(Parsed(ReplyDocument(r)), "ReferenceNum") == r.referenceNum
  {
    ReplyField(r, "ReferenceNum");
    LookupEntries(r, "ReferenceNum");
  }

  lemma ReplyReceiptId(r: Receipt)
    ensures ReceiptField(Parsed(ReplyDocument(r)), "ReceiptId") == r.receiptId
  {
    ReplyField(r, "ReceiptId");
    LookupEntries(r, "ReceiptId");
  }

  /** Every accessor of a reply built from `r` returns the corresponding field of `r`: present
      fields are read back and absent ones are null. */
  lemma ReplyRoundTrip(r: Receipt)
    ensures ReceiptOf(Parsed(ReplyDocument(r))) == r
    ensures CardReference(Parsed(ReplyDocument(r))) == r.dataKey
    ensures Code(Parsed(ReplyDocument(r))) == r.responseCode
    ensures TransactionReference(Parsed(ReplyDocument(r))) == r.referenceNum
    ensures OrderNumber(Parsed(ReplyDocument(r))) == r.receiptId
  {
    ReplyDataKey(r);
    ReplyMessage(r);
    ReplyResponseCode(r);
    ReplyAuthCode(r);
    ReplyTransID(r);
    ReplyReferenceNum(r);
    ReplyReceiptId(r);
  }
}

=== FILE: round_trip.dfy ===
/** The reference round trip: a reply kept as `Response::getData()` and handed back as the
    `transactionReference` of a refund or a void names the same transaction. */
module RoundTrip {
  import opened Wrappers
  import Text
  import Xml
  import AR = AbstractRequest
  import V = Validation
  import Response
  import Reference
  import RefundRequest
  import VoidRequest

  /** Deleting line feeds from an optional text. */
  function StripText(v: Option<string>): Option<string> {
    match v
    case None => None
    case Some(t) => Some(Text.DeleteNewlines(t))
  }

  /** Reading a receipt field of a stripped document reads the field of the original with its
      line feeds deleted. */
  lemma ReceiptFieldStrip(d: Xml.Document, name: string)
    ensures Response.ReceiptField(Response.Parsed(Xml.StripDocument(d)), name)
         == StripText(Response.ReceiptField(Response.Parsed(d), name))
  {
    Xml.FindChildStrip(d.root, "receipt");
    match Xml.FindChild(d.root.children, "receipt")
    case None =>
    case Some(receipt) =>
      Xml.FindChildStrip(receipt, name);
  }

  lemma Accessors(data: Response.ResponseData)
    ensures Response.OrderNumber(data) == Response.ReceiptField(data, "ReceiptId")
    ensures Response.TransactionId(data) == Response.ReceiptField(data, "TransID")
    ensures Response.TransactionReference(data) == Response.ReceiptField(data, "ReferenceNum")
  {
  }

  /** The text `getData()` returns for a reply. */
  function Kept(d: Xml.Document): string {
    Response.GetData(Response.Parsed(d)).text
  }

  /** The kept text of a well-formed reply parses back to the reply with line feeds deleted from
      its text. */
  lemma KeptReplyParses(d: Xml.Document)
    requires Xml.WellFormedDocument(d)
    ensures Xml.ParseDocument(Kept(d)) == Some(Xml.StripDocument(d))
  {
    Xml.ParseStrippedDocument(d);
  }

  /** The three transaction fields a reference names, read from a stripped reply. */
  lemma StrippedFields(d: Xml.Document)
    ensures Reference.Field(Xml.StripDocument(d), "ReceiptId") == Text.DeleteNewlines(Response.OrderNumber(Response.Parsed(d)).GetOr(""))
    ensures Reference.Field(Xml.StripDocument(d), "TransID") == Text.DeleteNewlines(Response.TransactionId(Response.Parsed(d)).GetOr(""))
    ensures Reference.Field(Xml.StripDocument(d), "ReferenceNum") == Text.DeleteNewlines(Response.TransactionReference(Response.Parsed(d)).GetOr(""))
  {
    ReceiptFieldStrip(d, "ReceiptId");
    ReceiptFieldStrip(d, "TransID");
    ReceiptFieldStrip(d, "ReferenceNum");
    Accessors(Response.Parsed(d));
  }

  /** Texts equal to the three fields of a stripped reply are the reply's fields with line feeds
      deleted. */
  lemma StrippedTexts(orderId: string, txnNumber: string, custId: string, d: Xml.Document)
    requires orderId == Reference.Field(Xml.StripDocument(d), "ReceiptId")
    requires txnNumber == Reference.Field(Xml.StripDocument(d), "TransID")
    requires custId == Reference.Field(Xml.StripDocument(d), "ReferenceNum")
    ensures orderId == Text.DeleteNewlines(Response.OrderNumber(Response.Parsed(d)).GetOr(""))
    ensures txnNumber == Text.DeleteNewlines(Response.TransactionId(Response.Parsed(d)).GetOr(""))
    ensures custId == Text.DeleteNewlines(Response.TransactionReference(Response.Parsed(d)).GetOr(""))
  {
    StrippedFields(d);
  }

  /** The transaction fields of a `refund` element are the reference's receipt fields. */
  lemma RefundFields(q: AR.Parameters, reference: Xml.Document)
    requires RefundRequest.Validated(q)
    ensures RefundRequest.RefundElement(q, reference).children[0].text == Reference.Field(reference, "ReceiptId")
    ensures RefundRequest.RefundElement(q, reference).children[2].text == Reference.Field(reference, "TransID")
    ensures RefundRequest.RefundElement(q, reference).children[4].text == Reference.Field(reference, "ReferenceNum")
  {
  }

  /** The transaction fields of a `completion` element are the reference's receipt fields. */
  lemma CompletionFields(q: AR.Parameters, reference: Xml.Document)
    ensures VoidRequest.CompletionElement(q, reference).children[0].text == Reference.Field(reference, "ReceiptId")
    ensures VoidRequest.CompletionElement(q, reference).children[2].text == Reference.Field(reference, "TransID")
    ensures VoidRequest.CompletionElement(q, reference).children[4].text == Reference.Field(reference, "ReferenceNum")
  {
  }

  /** A refund whose reference parses to `d` builds its element from `d`. */
  lemma RefundFromReference(p: AR.Parameters, reference: string, d: Xml.Document)
    requires Xml.ParseDocument(reference) == Some(d)
    requires p.amount.Some? && p.amount.value > 0
    ensures var q := p.(transactionReference := Some(reference));
            && RefundRequest.Document(q).Success?
            && RefundRequest.Operation(q) == RefundRequest.RefundElement(q, d)
  {
    var q := p.(transactionReference := Some(reference));
    assert RefundRequest.Validated(q) by {
      assert V.Check(q, RefundRequest.RequiredFields[0]).None?;
      assert V.Check(q, RefundRequest.RequiredFields[1]).None?;
    }
    assert RefundRequest.Document(q).Success?;
  }

  /** A void whose reference parses to `d` builds its element from `d`. */
  lemma VoidFromReference(p: AR.Parameters, reference: string, d: Xml.Document)
    requires Xml.ParseDocument(reference) == Some(d)
    ensures var q := p.(transactionReference := Some(reference));
            && VoidRequest.Document(q).Success?
            && VoidRequest.Operation(q) == VoidRequest.CompletionElement(q, d)
  {
    var q := p.(transactionReference := Some(reference));
    VoidRequest.Built(q);
  }

  /** A refund whose reference parses to a stripped reply sends the reply's transaction fields
      with line feeds deleted. */
  lemma RefundFromStripped(p: AR.Parameters, reference: string, d: Xml.Document)
    requires Xml.ParseDocument(reference) == Some(Xml.StripDocument(d))
    requires p.amount.Some? && p.amount.value > 0
    ensures var q := p.(transactionReference := Some(reference));
            var reply := Response.Parsed(d);
            && RefundRequest.Document(q).Success?
            && RefundRequest.Operation(q).children[0].text == Text.DeleteNewlines(Response.OrderNumber(reply).GetOr(""))
            && RefundRequest.Operation(q).children[2].text == Text.DeleteNewlines(Response.TransactionId(reply).GetOr(""))
            && RefundRequest.Operation(q).children[4].text == Text.DeleteNewlines(Response.TransactionReference(reply).GetOr(""))
  {
    var q := p.(transactionReference := Some(reference));
    var s := Xml.StripDocument(d);
    RefundFromReference(p, reference, s);
    var op := RefundRequest.Operation(q);
    assert op == RefundRequest.RefundElement(q, s);
    RefundFields(q, s);
    StrippedTexts(op.children[0].text, op.children[2].text, op.children[4].text, d);
  }

  /** A void whose reference parses to a stripped reply sends the reply's transaction fields
      with line feeds deleted. */
  lemma VoidFromStripped(p: AR.Parameters, reference: string, d: Xml.Document)
    requires Xml.ParseDocument(reference) == Some(Xml.StripDocument(d))
    ensures var q := p.(transactionReference := Some(reference));
            var reply := Response.Parsed(d);
            && VoidRequest.Document(q).Success?
            && VoidRequest.Operation(q).children[0].text == Text.DeleteNewlines(Response.OrderNumber(reply).GetOr(""))
            && VoidRequest.Operation(q).children[2].text == Text.DeleteNewlines(Response.TransactionId(reply).GetOr(""))
            && VoidRequest.Operation(q).children[4].text == Text.DeleteNewlines(Response.TransactionReference(reply).GetOr(""))
  {
    var q := p.(transactionReference := Some(reference));
    var s := Xml.StripDocument(d);
    VoidFromReference(p, reference, s);
    var op := VoidRequest.Operation(q);
    assert op == VoidRequest.CompletionElement(q, s);
    CompletionFields(q, s);
    StrippedTexts(op.children[0].text, op.children[2].text, op.children[4].text, d);
  }

  /** A refund whose reference is the kept text of a well-formed reply sends that reply's order
      number, transaction id and reference number, with line feeds deleted, as `order_id`,
      `txn_number` and `cust_id`. */
  lemma KeptRefundNamesTransaction(p: AR.Parameters, d: Xml.Document)
    requires Xml.WellFormedDocument(d)
    requires p.amount.Some? && p.amount.value > 0
    ensures var q := p.(transactionReference := Some(Kept(d)));
            var reply := Response.Parsed(d);
            && RefundRequest.Document(q).Success?
            && RefundRequest.Operation(q).children[0].text == Text.DeleteNewlines(Response.OrderNumber(reply).GetOr(""))
            && RefundRequest.Operation(q).children[2].text == Text.DeleteNewlines(Response.TransactionId(reply).GetOr(""))
            && RefundRequest.Operation(q).children[4].text == Text.DeleteNewlines(Response.TransactionReference(reply).GetOr(""))
  {
    KeptReplyParses(d);
    RefundFromStripped(p, Kept(d), d);
  }

  /** A void whose reference is the kept text of a well-formed reply sends that reply's order
      number, transaction id and reference number, with line feeds deleted, as `order_id`,
      `txn_number` and `cust_id`. */
  lemma KeptVoidNamesTransaction(p: AR.Parameters, d: Xml.Document)
    requires Xml.WellFormedDocument(d)
    ensures var q := p.(transactionReference := Some(Kept(d)));
            var reply := Response.Parsed(d);
            && VoidRequest.Document(q).Success?
            && VoidRequest.Operation(q).children[0].text == Text.DeleteNewlines(Response.OrderNumber(reply).GetOr(""))
            && VoidRequest.Operation(q).children[2].text == Text.DeleteNewlines(Response.TransactionId(reply).GetOr(""))
            && VoidRequest.Operation(q).children[4].text == Text.DeleteNewlines(Response.TransactionReference(reply).GetOr(""))
  {
    KeptReplyParses(d);
    VoidFromStripped(p, Kept(d), d);
  }

  /** For a reply that came off the wire (any text the parser accepts) whose three transaction
      fields hold no line feed, a refund and a void built from its kept text send exactly those
      fields. */
  lemma ReplyFieldsSurvive(p: AR.Parameters, reply: string)
    requires Xml.ParseDocument(reply).Some?
    requires p.amount.Some? && p.amount.value > 0
    requires var r := Response.Parsed(Xml.ParseDocument(reply).value);
             && '\n' !in Response.OrderNumber(r).GetOr("")
             && '\n' !in Response.TransactionId(r).GetOr("")
             && '\n' !in Response.TransactionReference(r).GetOr("")
    ensures var d := Xml.ParseDocument(reply).value;
            var r := Response.Parsed(d);
            var q := p.(transactionReference := Some(Kept(d)));
            && RefundRequest.Document(q).Success? && VoidRequest.Document(q).Success?
            && RefundRequest.Operation(q).children[0].text == Response.OrderNumber(r).GetOr("")
            && RefundRequest.Operation(q).children[2].text == Response.TransactionId(r).GetOr("")
            && RefundRequest.Operation(q).children[4].text == Response.TransactionReference(r).GetOr("")
            && VoidRequest.Operation(q).children[0].text == Response.OrderNumber(r).GetOr("")
            && VoidRequest.Operation(q).children[2].text == Response.TransactionId(r).GetOr("")
            && VoidRequest.Operation(q).children[4].text == Response.TransactionReference(r).GetOr("")
  {
    var d := Xml.ParseDocument(reply).value;
    Xml.ParsedDocumentWellFormed(reply);
    KeptRefundNamesTransaction(p, d);
    KeptVoidNamesTransaction(p, d);
  }
}

=== FILE: send.dfy ===
/** `sendData` and `send`: the HTTP call a request makes and the response built from the reply.
    The HTTP client is not modelled; the call is returned as a value and the reply body is an
    input. */
module Send {
  import opened Wrappers
  import Text
  import Xml
  import AR = AbstractRequest
  import V = Validation
  import Response
  import PurchaseRequest
  import RefundRequest
  import VoidRequest

  /** The HTTP request handed to the client. */
  datatype HttpCall = HttpCall(
    httpMethod: string,
    url: Option<string>,
    headers: seq<(string, string)>,
    body: Option<string>)

  const HttpMethod: string := "POST"
  const Headers: seq<(string, string)> := [("Content-Type", "application/xml")]

  /** The `resptext` of the response built when the reply does not parse. */
  const FallbackText: string := "Oops! something went wrong, Try again after sometime."

  /** PHP's `empty()` of a string: the empty string and `"0"`. */
  predicate Empty(data: string) {
    data == "" || data == "0"
  }

  /** The response data for a reply body: the parsed document; `false` for the empty body, which
      `simplexml_load_string` refuses without a warning; or the fallback array when parsing
      warns. */
  function ReplyData(reply: string): (r: Response.ResponseData)
    ensures r.Parsed? <==> Xml.ParseDocument(reply).Some?
    ensures r.Parsed? ==> Some(r.doc) == Xml.ParseDocument(reply)
    ensures r.NoDocument? <==> reply == []
    ensures r.Fallback? <==> reply != [] && Xml.ParseDocument(reply).None?
    ensures r.Fallback? ==> r.resptext == FallbackText
  {
    if reply == [] then Response.NoDocument
    else
    match Xml.ParseDocument(reply)
    case Some(d) => Response.Parsed(d)
    case None => Response.Fallback(FallbackText)
  }

  /** What one `sendData(data)` does: the call made (a POST to the endpoint, with the XML
      content type, carrying `data` as its body unless it is empty), the response built from
      `reply`, and the request afterwards (its endpoint cache filled). */
  function SendData(req: AR.Request, data: string, reply: string): (r: (HttpCall, Response.ResponseData, AR.Request))
    ensures r.0.httpMethod == "POST" && r.0.headers == [("Content-Type", "application/xml")]
    ensures r.0.url == AR.GetEndpoint(req).0 && r.2 == AR.GetEndpoint(req).1
    ensures r.2.params == req.params
    ensures r.0.body.Some? <==> !Empty(data)
    ensures r.0.body.Some? ==> r.0.body.value == data
    ensures r.1 == ReplyData(reply)
  {
    var (endpoint, after) := AR.GetEndpoint(req);
    var body := if !Empty(data) then Some(data) else None;
    (HttpCall(HttpMethod, endpoint, Headers, body), ReplyData(reply), after)
  }

  /** The three requests this model builds. */
  datatype Operation = Purchase | Refund | Void

  /** `getData()` of the request of kind `op`. */
  function BuildData(op: Operation, p: AR.Parameters): Result<string, V.Error> {
    match op
    case Purchase => PurchaseRequest.GetData(p)
    case Refund => RefundRequest.GetData(p)
    case Void => VoidRequest.GetData(p)
  }

  /** `send()`: build the data, then send it. An error while building is raised before any call
      is made, and leaves the request as it was. */
  function SendRequest(op: Operation, req: AR.Request, reply: string)
    : (r: Result<(HttpCall, Response.ResponseData, AR.Request), V.Error>)
    ensures BuildData(op, req.params).Failure? <==> r.Failure?
    ensures r.Failure? ==> r.error == BuildData(op, req.params).error
    ensures r.Success? ==> r.value == SendData(req, BuildData(op, req.params).value, reply)
  {
    var data :- BuildData(op, req.params);
    Success(SendData(req, data, reply))
  }

  // ---------------------------------------------------------------- properties

  /** A non-empty reply that does not parse gives a response holding only the fallback text,
      returned raw by `getData()`; the empty reply gives `false`, returned as `false`. Either way
      the response is unsuccessful and every accessor, the message included, is null. */
  lemma UnparseableReplyFallsBack(req: AR.Request, data: string, reply: string)
    requires Xml.ParseDocument(reply).None?
    ensures var resp := SendData(req, data, reply).1;
            && (reply != [] ==> resp == Response.Fallback("Oops! something went wrong, Try again after sometime."))
            && (reply != [] ==> Response.GetData(resp) == Response.Raw(FallbackText))
            && (reply == [] ==> resp == Response.NoDocument && Response.GetData(resp) == Response.False)
            && !Response.IsSuccessful(resp)
            && Response.Message(resp).None?
  {
    Response.FallbackReadsNothing(FallbackText);
    Response.FalseReadsNothing();
  }

  /** Serialized XML always starts with `<?`, so it is never empty. */
  lemma SerializedNotEmpty(d: Xml.Document)
    ensures !Empty(Text.DeleteNewlines(Xml.Serialize(d)))
    ensures !Empty(Text.ReplaceNewlines(Xml.Serialize(d)))
  {
    Xml.DeleteNewlinesSerialize(d);
    var s := Text.ReplaceNewlines(Xml.Serialize(d));
    assert Xml.Serialize(d)[0] == '<';
    assert s[0] == '<';
  }

  /** Every request this model builds is sent with a body. */
  lemma BuiltRequestsCarryBody(op: Operation, req: AR.Request, reply: string)
    requires SendRequest(op, req, reply).Success?
    ensures SendRequest(op, req, reply).value.0.body.Some?
  {
    match op
    case Purchase => SerializedNotEmpty(PurchaseRequest.Document(req.params).value);
    case Refund => SerializedNotEmpty(RefundRequest.Document(req.params).value);
    case Void => SerializedNotEmpty(VoidRequest.Document(req.params).value);
  }

  /** Empty data — the empty string or `"0"` — is sent without a body. */
  lemma EmptyDataHasNoBody(req: AR.Request, reply: string)
    ensures SendData(req, "", reply).0.body.None?
    ensures SendData(req, "0", reply).0.body.None?
    ensures SendData(req, "00", reply).0.body == Some("00")
  {
  }
}

=== FILE: text.dfy ===
/** String helpers with PHP's meaning: line-feed rewriting (`preg_replace('/\n/', …)`),
    `str_contains`, decimal rendering of integers, and the `(int)` cast of a string. */
module Text {

  /** Every line feed of `s` deleted, as `preg_replace('/\n/', '', s)` does. */
  function DeleteNewlines(s: string): (r: string)
    ensures '\n' !in r
    ensures '\n' !in s ==> r == s
    ensures |r| <= |s|
    ensures forall c :: c in r ==> c in s
  {
    if s == [] then []
    else if s[0] == '\n' then DeleteNewlines(s[1..])
    else [s[0]] + DeleteNewlines(s[1..])
  }

  /** Deleting line feeds distributes over concatenation. */
  lemma {:induction false} DeleteNewlinesAppend(a: string, b: string)
    ensures DeleteNewlines(a + b) == DeleteNewlines(a) + DeleteNewlines(b)
  {
    if a == [] {
      assert a + b == b;
    } else {
      assert (a + b)[0] == a[0];
      assert (a + b)[1..] == a[1..] + b;
      DeleteNewlinesAppend(a[1..], b);
      if a[0] != '\n' {
        assert DeleteNewlines(a + b) == [a[0]] + DeleteNewlines(a[1..] + b);
        assert DeleteNewlines(a) == [a[0]] + DeleteNewlines(a[1..]);
      }
    }
  }

  /** On one character, deletion drops a line feed and keeps anything else. Together with
      `DeleteNewlinesAppend` this fixes `DeleteNewlines` completely: the other characters are
      kept, in their order. */
  lemma DeleteNewlinesChar(c: char)
    ensures DeleteNewlines([c]) == if c == '\n' then [] else [c]
  {
    assert [c][1..] == [];
  }

  /** Exactly the line feeds are removed: every other character keeps its number of
      occurrences. */
  lemma {:induction false} DeleteNewlinesMultiset(s: string)
    ensures multiset(DeleteNewlines(s)) == multiset(s)['\n' := 0]
  {
    if s != [] {
      var c, rest := s[0], s[1..];
      DeleteNewlinesMultiset(rest);
      assert s == [c] + rest;
      assert multiset(s) == multiset{c} + multiset(rest);
      if c == '\n' {
        assert DeleteNewlines(s) == DeleteNewlines(rest);
      } else {
        assert DeleteNewlines(s) == [c] + DeleteNewlines(rest);
        assert multiset(DeleteNewlines(s)) == multiset{c} + multiset(DeleteNewlines(rest));
      }
    }
  }

  /** Every line feed of `s` replaced by a space, as `preg_replace('/\n/', ' ', s)` does. */
  function ReplaceNewlines(s: string): (r: string)
    ensures |r| == |s|
    ensures forall i :: 0 <= i < |s| ==> r[i] == (if s[i] == '\n' then ' ' else s[i])
    ensures '\n' !in r
  {
    if s == [] then []
    else [if s[0] == '\n' then ' ' else s[0]] + ReplaceNewlines(s[1..])
  }

  /** PHP's `str_contains(s, sub)`: `sub` occurs in `s` at some offset (the empty string
      occurs everywhere). */
  function Contains(s: string, sub: string): (r: bool)
    ensures r <==> exists i :: 0 <= i <= |s| - |sub| && sub <= s[i..]
  {
    if sub <= s then
      assert sub <= s[0..];
      true
    else if |s| == 0 then false
    else
      var r := Contains(s[1..], sub);
      if r then
        var i :| 0 <= i <= |s[1..]| - |sub| && sub <= s[1..][i..];
        assert s[1..][i..] == s[i + 1..];
        true
      else
        assert forall i :: 1 <= i <= |s| - |sub| ==> s[i..] == s[1..][i - 1..];
        false
  }

  predicate IsDigit(c: char) {
    '0' <= c <= '9'
  }

  predicate AllDigits(s: string) {
    forall i :: 0 <= i < |s| ==> IsDigit(s[i])
  }

  function DigitValue(c: char): nat
    requires IsDigit(c)
  {
    c as int - '0' as int
  }

  function DigitChar(d: nat): (c: char)
    requires d < 10
    ensures IsDigit(c) && DigitValue(c) == d
  {
    ('0' as int + d) as char
  }

  /** The number a string of decimal digits denotes (most significant first). */
  function DigitsValue(ds: string): nat
    requires AllDigits(ds)
  {
    if ds == [] then 0 else DigitsValue(ds[..|ds| - 1]) * 10 + DigitValue(ds[|ds| - 1])
  }

  function Pow10(e: nat): (r: nat)
    ensures r > 0
  {
    if e == 0 then 1 else 10 * Pow10(e - 1)
  }

  lemma ShiftDigit(x: int, p: int, y: int, d: int)
    ensures (x * p + y) * 10 + d == x * (p * 10) + (y * 10 + d)
  {
  }

  /** The value of a digit string split in two: the high part shifted by the low part's width. */
  lemma {:induction false} DigitsValueAppend(a: string, b: string)
    requires AllDigits(a) && AllDigits(b)
    ensures AllDigits(a + b)
    ensures DigitsValue(a + b) == DigitsValue(a) * Pow10(|b|) + DigitsValue(b)
  {
    var ab := a + b;
    assert AllDigits(ab) by {
      forall i | 0 <= i < |ab| ensures IsDigit(ab[i]) {
        if i < |a| { assert ab[i] == a[i]; } else { assert ab[i] == b[i - |a|]; }
      }
    }
    if b == [] {
      assert ab == a;
    } else {
      var b' := b[..|b| - 1];
      var last := DigitValue(b[|b| - 1]);
      DigitsValueAppend(a, b');
      assert ab[..|ab| - 1] == a + b';
      assert ab[|ab| - 1] == b[|b| - 1];
      assert DigitsValue(ab) == DigitsValue(a + b') * 10 + last;
      assert DigitsValue(b) == DigitsValue(b') * 10 + last;
      assert Pow10(|b|) == Pow10(|b'|) * 10;
      ShiftDigit(DigitsValue(a), Pow10(|b'|), DigitsValue(b'), last);
    }
  }

  /** Decimal rendering of a natural number, without leading zeros (PHP's `(string)` of an int). */
  function NatToString(n: nat): (r: string)
    ensures |r| > 0 && AllDigits(r)
    decreases n
  {
    if n < 10 then [DigitChar(n)] else NatToString(n / 10) + [DigitChar(n % 10)]
  }

  /** Decimal rendering of an integer, with a leading '-' when negative. */
  function IntToString(i: int): (r: string)
    ensures |r| > 0
    ensures r[0] == '-' || IsDigit(r[0])
  {
    if i < 0 then "-" + NatToString(-i) else NatToString(i)
  }

  lemma {:induction false} DigitsValueNatToString(n: nat)
    ensures DigitsValue(NatToString(n)) == n
    decreases n
  {
    var s := NatToString(n);
    if n >= 10 {
      DigitsValueNatToString(n / 10);
      assert s[..|s| - 1] == NatToString(n / 10);
    }
  }

  /** The longest prefix of `s` made of decimal digits. */
  function DigitSpan(s: string): (r: string)
    ensures r <= s && AllDigits(r)
    ensures |r| == |s| || !IsDigit(s[|r|])
  {
    if s != [] && IsDigit(s[0]) then [s[0]] + DigitSpan(s[1..]) else []
  }

  lemma {:induction false} DigitSpanOfDigits(a: string, b: string)
    requires AllDigits(a)
    requires b == [] || !IsDigit(b[0])
    ensures DigitSpan(a + b) == a
  {
    if a != [] {
      assert (a + b)[1..] == a[1..] + b;
      DigitSpanOfDigits(a[1..], b);
    } else {
      assert a + b == b;
    }
  }

  /** The whitespace PHP allows in front of a numeric string. */
  predicate IsPhpSpace(c: char) {
    c == ' ' || c == '\t' || c == '\n' || c == '\r' || c as int == 11 || c as int == 12
  }

  /** `s` without its leading PHP whitespace. */
  function SkipPhpSpace(s: string): (r: string)
    ensures |r| <= |s| && r == s[|s| - |r|..]
    ensures r == [] || !IsPhpSpace(r[0])
  {
    if s != [] && IsPhpSpace(s[0]) then SkipPhpSpace(s[1..]) else s
  }

  /** The exponent of a leading `e`/`E` marker followed by an optionally signed digit string;
      0 when `s` does not start with one. */
  function ExponentPrefix(s: string): int {
    if |s| == 0 || (s[0] != 'e' && s[0] != 'E') then 0
    else
      var t := s[1..];
      var negative := |t| > 0 && t[0] == '-';
      var digits := DigitSpan(if |t| > 0 && (t[0] == '-' || t[0] == '+') then t[1..] else t);
      if negative then -(DigitsValue(digits) as int) else DigitsValue(digits)
  }

  /** The magnitude of the unsigned decimal number `u` starts with (`12`, `12.5`, `.5`, `5e1`,
      `1.5E-1`), truncated toward zero; 0 when `u` starts with no digits. */
  function DecimalPrefix(u: string): nat {
    var whole := DigitSpan(u);
    var afterWhole := u[|whole|..];
    var hasPoint := |afterWhole| > 0 && afterWhole[0] == '.';
    var fraction := if hasPoint then DigitSpan(afterWhole[1..]) else [];
    if |whole| == 0 && |fraction| == 0 then 0
    else
      var rest := if hasPoint then afterWhole[1 + |fraction|..] else afterWhole;
      Scaled(DigitsValue(whole) * Pow10(|fraction|) + DigitsValue(fraction),
             ExponentPrefix(rest) - |fraction|)
  }

  /** `m` times ten to the power `e`, truncated toward zero when `e` is negative. */
  function Scaled(m: nat, e: int): nat
    decreases if e >= 0 then e else -e
  {
    if e == 0 then m
    else if e > 0 then Scaled(m * 10, e - 1)
    else Scaled(m / 10, e + 1)
  }

  /** PHP's `(int)` cast of a string: leading whitespace, an optional sign, then the leading
      decimal number (with fraction and exponent) truncated toward zero; 0 without one. A
      string of digits reads as its value, and a string without any digit as 0. */
  function PhpInt(s: string): (r: int)
    ensures s != [] && AllDigits(s) ==> r == DigitsValue(s)
    ensures (forall i :: 0 <= i < |s| ==> !IsDigit(s[i])) ==> r == 0
  {
    DigitsCast(s);
    NoDigitsCast(s);
    SignedDecimal(s)
  }

  /** The cast itself: the sign and decimal number after the leading whitespace. */
  function SignedDecimal(s: string): int {
    var t := SkipPhpSpace(s);
    var signed := |t| > 0 && (t[0] == '-' || t[0] == '+');
    var magnitude := DecimalPrefix(if signed then t[1..] else t);
    if signed && t[0] == '-' then -(magnitude as int) else magnitude
  }

  /** A string of digits casts to its value. */
  lemma DigitsCast(s: string)
    ensures s != [] && AllDigits(s) ==> SignedDecimal(s) == DigitsValue(s)
  {
    if s != [] && AllDigits(s) {
      assert IsDigit(s[0]) && !IsPhpSpace(s[0]) && SkipPhpSpace(s) == s;
      assert s + [] == s;
      DecimalPrefixOfDigits(s, []);
    }
  }

  /** A string without digits casts to 0. */
  lemma NoDigitsCast(s: string)
    ensures (forall i :: 0 <= i < |s| ==> !IsDigit(s[i])) ==> SignedDecimal(s) == 0
  {
    if forall i :: 0 <= i < |s| ==> !IsDigit(s[i]) {
      var t := SkipPhpSpace(s);
      var u := if |t| > 0 && (t[0] == '-' || t[0] == '+') then t[1..] else t;
      NoDigitsNoNumber(s, u);
    }
  }

  /** A suffix of a string without digits starts no number. */
  lemma NoDigitsNoNumber(s: string, u: string)
    requires forall i :: 0 <= i < |s| ==> !IsDigit(s[i])
    requires |u| <= |s| && u == s[|s| - |u|..]
    ensures DecimalPrefix(u) == 0
  {
    assert forall i :: 0 <= i < |u| ==> u[i] == s[|s| - |u| + i];
    assert DigitSpan(u) == [];
    if |u| > 0 && u[0] == '.' {
      assert u[1..] == s[|s| - |u| + 1..];
      assert DigitSpan(u[1..]) == [];
    }
  }

  /** A digit string followed by text that does not continue a number (no digit, point or
      exponent marker) reads as the digit string's value. */
  lemma DecimalPrefixOfDigits(d: string, t: string)
    requires d != [] && AllDigits(d)
    requires t == [] || !(IsDigit(t[0]) || t[0] == '.' || t[0] == 'e' || t[0] == 'E')
    ensures DecimalPrefix(d + t) == DigitsValue(d)
  {
    var u := d + t;
    DigitSpanOfDigits(d, t);
    assert u[|d|..] == t;
    assert ExponentPrefix(t) == 0;
    assert Pow10(0) == 1;
  }

  /** Without leading whitespace or sign, the cast reads the unsigned number in front. */
  lemma CastUnsigned(s: string)
    requires s != [] && !IsPhpSpace(s[0]) && s[0] != '-' && s[0] != '+'
    ensures PhpInt(s) == DecimalPrefix(s)
  {
    assert SkipPhpSpace(s) == s;
  }

  /** A leading minus sign negates the number after it. */
  lemma CastNegative(s: string)
    requires s != [] && s[0] == '-'
    ensures PhpInt(s) == -(DecimalPrefix(s[1..]) as int)
  {
    assert SkipPhpSpace(s) == s;
  }

  /** `(int)` reads the leading integer of a string and ignores the rest: `"49abc"` is 49 and
      `"-7 x"` is -7. */
  lemma PhpIntOfPrefix(d: string, t: string)
    requires d != [] && AllDigits(d)
    requires t == [] || !(IsDigit(t[0]) || t[0] == '.' || t[0] == 'e' || t[0] == 'E')
    ensures PhpInt(d + t) == DigitsValue(d)
    ensures PhpInt("-" + d + t) == -(DigitsValue(d) as int)
  {
    PositivePrefix(d + t, d, t);
    NegativePrefix("-" + d + t, d, t);
  }

  /** The unsigned half of `PhpIntOfPrefix`. */
  lemma PositivePrefix(u: string, d: string, t: string)
    requires d != [] && AllDigits(d) && u == d + t
    requires t == [] || !(IsDigit(t[0]) || t[0] == '.' || t[0] == 'e' || t[0] == 'E')
    ensures PhpInt(u) == DigitsValue(d)
  {
    assert u[0] == d[0];
    CastUnsigned(u);
    DecimalPrefixOfDigits(d, t);
  }

  /** The negative half of `PhpIntOfPrefix`. */
  lemma NegativePrefix(v: string, d: string, t: string)
    requires d != [] && AllDigits(d) && v == "-" + d + t
    requires t == [] || !(IsDigit(t[0]) || t[0] == '.' || t[0] == 'e' || t[0] == 'E')
    ensures PhpInt(v) == -(DigitsValue(d) as int)
  {
    assert v[1..] == d + t;
    CastNegative(v);
    DecimalPrefixOfDigits(d, t);
  }

  /** A string that, after white space and a sign, starts with neither a digit nor a point
      followed by a digit casts to 0: `""`, `"abc"`, `"-x"`, `". 5"`. */
  lemma PhpIntOfNonNumber(s: string)
    requires var t := SkipPhpSpace(s);
             var u := if |t| > 0 && (t[0] == '-' || t[0] == '+') then t[1..] else t;
             u == [] || (!IsDigit(u[0]) && (u[0] != '.' || |u| == 1 || !IsDigit(u[1])))
    ensures PhpInt(s) == 0
  {
    var t := SkipPhpSpace(s);
    var u := if |t| > 0 && (t[0] == '-' || t[0] == '+') then t[1..] else t;
    NoNumberStart(u);
    assert SignedDecimal(s) == 0;
  }

  /** An unsigned string that starts with neither a digit nor a point and a digit has no number. */
  lemma NoNumberStart(u: string)
    requires u == [] || (!IsDigit(u[0]) && (u[0] != '.' || |u| == 1 || !IsDigit(u[1])))
    ensures DecimalPrefix(u) == 0
  {
    assert DigitSpan(u) == [];
    if |u| > 0 && u[0] == '.' {
      assert DigitSpan(u[1..]) == [];
    }
  }

  /** Reading back a natural number's decimal rendering yields the number. */
  lemma DecimalPrefixNatToString(n: nat)
    ensures DecimalPrefix(NatToString(n)) == n
  {
    var s := NatToString(n);
    assert s + [] == s;
    DecimalPrefixOfDigits(s, []);
    DigitsValueNatToString(n);
  }

  /** `(int)` inverts the decimal rendering of an integer. */
  lemma PhpIntOfIntToString(i: int)
    ensures PhpInt(IntToString(i)) == i
  {
    var n := NatToString(if i < 0 then -i else i);
    assert n + [] == n;
    DigitsValueNatToString(if i < 0 then -i else i);
    if i < 0 {
      NegativePrefix(IntToString(i), n, []);
    } else {
      PositivePrefix(IntToString(i), n, []);
    }
  }
}

=== FILE: validation.dfy ===
/** `validate(...)`: the per-parameter rules a builder checks, in the order it names them, and
    the errors a builder can raise before any XML exists. */
module Validation {
  import opened Wrappers
  import AR = AbstractRequest

  /** The parameters a builder can name in `validate(...)`. */
  datatype Field =
    | OrderNumber
    | CryptType
    | Amount
    | PaymentMethod
    | Description
    | CardReference
    | Card
    | TransactionReference

  /** Everything `getData` can raise. `InvalidCreditCard` is the card object's own
      `InvalidCreditCardException`; `ReceiptOfFalse` is the host's `ErrorException` for the
      warning PHP gives when `->receipt` is read on `false`; all others are the source's
      `InvalidRequestException`. */
  datatype Error =
    | MissingParameter(field: Field)
    | InvalidParameter(field: Field)
    | InvalidPaymentMethod
    | InvalidTransactionReference
    | InvalidCreditCard
    | ReceiptOfFalse
  {
    predicate IsInvalidRequest() {
      !InvalidCreditCard? && !ReceiptOfFalse?
    }

    function Message(): string {
      match this
      case InvalidPaymentMethod => "Invalid payment method"
      case InvalidTransactionReference => "Invalid transaction reference"
      case ReceiptOfFalse => "Attempt to read property \"receipt\" on bool"
      case _ => ""
    }
  }

  const MaxOrderNumberLength: nat := 50
  const MaxDescriptionLength: nat := 20

  /** The rule for one parameter; `None` when it holds.
      - orderNumber: present, 1 to 50 characters
      - cryptType: present, one of the e-commerce indicators 1..7
      - amount: present and positive
      - description: optional, at most 20 characters
      - card: present, and passing the card's own validation
      - every other named parameter: present */
  function Check(p: AR.Parameters, f: Field): Option<Error> {
    match f
    case OrderNumber =>
      if p.orderNumber.None? then Some(MissingParameter(f))
      else if |p.orderNumber.value| == 0 || |p.orderNumber.value| > MaxOrderNumberLength then Some(InvalidParameter(f))
      else None
    case CryptType =>
      if p.cryptType.None? then Some(MissingParameter(f))
      else if !(1 <= p.cryptType.value <= 7) then Some(InvalidParameter(f))
      else None
    case Amount =>
      if p.amount.None? then Some(MissingParameter(f))
      else if p.amount.value <= 0 then Some(InvalidParameter(f))
      else None
    case PaymentMethod =>
      if p.paymentMethod.None? then Some(MissingParameter(f)) else None
    case Description =>
      if p.description.Some? && |p.description.value| > MaxDescriptionLength then Some(InvalidParameter(f))
      else None
    case CardReference =>
      if p.cardReference.None? then Some(MissingParameter(f)) else None
    case Card =>
      if p.card.None? then Some(MissingParameter(f))
      else if !p.card.value.passesOwnValidation then Some(InvalidCreditCard)
      else None
    case TransactionReference =>
      if p.transactionReference.None? then Some(MissingParameter(f)) else None
  }

  /** `validate(fields...)`: the error of the first field, in the order given, whose rule fails;
      `None` when every rule holds. */
  function Validate(p: AR.Parameters, fields: seq<Field>): (r: Option<Error>)
    ensures r.None? <==> forall i :: 0 <= i < |fields| ==> Check(p, fields[i]).None?
    ensures r.Some? ==> exists i :: 0 <= i < |fields| && Check(p, fields[i]) == r
                                    && forall j :: 0 <= j < i ==> Check(p, fields[j]).None?
  {
    if fields == [] then None
    else if Check(p, fields[0]).Some? then Check(p, fields[0])
    else
      var r := Validate(p, fields[1..]);
      assert forall i :: 1 <= i < |fields| ==> fields[i] == fields[1..][i - 1];
      if r.Some? then
        var i :| 0 <= i < |fields[1..]| && Check(p, fields[1..][i]) == r
                 && forall j :: 0 <= j < i ==> Check(p, fields[1..][j]).None?;
        assert Check(p, fields[i + 1]) == r;
        r
      else r
  }

  /** A failed validation names a field the caller asked for, and the error is a request error
      unless it came from the card's own check. */
  lemma ValidateErrorNamesField(p: AR.Parameters, fields: seq<Field>)
    requires Validate(p, fields).Some?
    ensures var e := Validate(p, fields).value;
            ((e.MissingParameter? || e.InvalidParameter?) && e.field in fields) || (e.InvalidCreditCard? && Card in fields)
  {
    var i :| 0 <= i < |fields| && Check(p, fields[i]) == Validate(p, fields);
    assert fields[i] in fields;
  }

  /** The boundaries of the length rules: 50 characters of order number and 20 of description
      pass, one more fails; the 22-character description of the purchase tests fails. */
  lemma LengthBoundaries(p: AR.Parameters)
    ensures p.orderNumber.Some? && |p.orderNumber.value| == 50 ==> Check(p, OrderNumber).None?
    ensures p.orderNumber.Some? && |p.orderNumber.value| == 51 ==> Check(p, OrderNumber) == Some(InvalidParameter(OrderNumber))
    ensures p.description.Some? && |p.description.value| == 20 ==> Check(p, Description).None?
    ensures p.description.Some? && |p.description.value| == 21 ==> Check(p, Description) == Some(InvalidParameter(Description))
    ensures p.description.Some? && |p.description.value| == 22 ==> Check(p, Description) == Some(InvalidParameter(Description))
    ensures p.description.None? ==> Check(p, Description).None?
  {
  }
}

=== FILE: void_request.dfy ===
/** `VoidRequest::getData`: a zero-amount `completion` that voids an earlier transaction, named
    by its reference. */
module VoidRequest {
  import opened Wrappers
  import Text
  import Xml
  import AR = AbstractRequest
  import V = Validation
  import Reference

  /** Only the reference is validated; a void carries no amount of its own. */
  const RequiredFields: seq<V.Field> := [V.TransactionReference]

  /** The amount a void completes for. */
  const VoidAmount: string := "0.00"

  predicate Validated(p: AR.Parameters)
    ensures Validated(p) <==> p.transactionReference.Some?
  {
    var ok := V.Validate(p, RequiredFields).None?;
    assert ok <==> V.Check(p, RequiredFields[0]).None?;
    ok
  }

  /** The `completion` element: the transaction named by `reference`, a zero amount, the crypt
      type of this request, and the fixed descriptor `void`. */
  function CompletionElement(p: AR.Parameters, reference: Xml.Document): Xml.Node {
    Xml.Node("completion", "", [
      Xml.Leaf("order_id", Reference.Field(reference, "ReceiptId")),
      Xml.Leaf("comp_amount", VoidAmount),
      Xml.Leaf("txn_number", Reference.Field(reference, "TransID")),
      Xml.Leaf("crypt_type", AR.OptionalIntText(p.cryptType)),
      Xml.Leaf("cust_id", Reference.Field(reference, "ReferenceNum")),
      Xml.Leaf("dynamic_descriptor", "void")])
  }

  /** The void document, or the error raised instead: a missing reference first, then an
      unparseable one, or the read of `receipt` of `false` for the empty one. */
  function Document(p: AR.Parameters): (r: Result<Xml.Document, V.Error>)
    ensures p.transactionReference.None? ==> r == Failure(V.MissingParameter(V.TransactionReference))
    ensures p.transactionReference.Some? ==> (r.Success? <==> Xml.ParseDocument(p.transactionReference.value).Some?)
    ensures p.transactionReference.Some? && r.Failure? ==>
              r.error == if p.transactionReference.value == [] then V.ReceiptOfFalse else V.InvalidTransactionReference
    ensures r.Success? ==> |r.value.root.children| == 3 && r.value == AR.RequestDocument(p, r.value.root.children[2])
  {
    if !Validated(p) then Failure(V.Validate(p, RequiredFields).value)
    else
      match Reference.Parse(p.transactionReference.value)
      case Failure(e) => Failure(e)
      case Success(reference) => Success(AR.RequestDocument(p, CompletionElement(p, reference)))
  }

  /** `getData()`: the serialized document with every line feed replaced by a space, so the text
      keeps its length and its other characters. */
  function GetData(p: AR.Parameters): (r: Result<string, V.Error>)
    ensures r.Success? <==> Document(p).Success?
    ensures r.Failure? ==> r.error == Document(p).error
    ensures r.Success? ==> '\n' !in r.value
    ensures r.Success? ==> var xml := Xml.Serialize(Document(p).value);
                           |r.value| == |xml|
                           && (forall i :: 0 <= i < |xml| && xml[i] != '\n' ==> r.value[i] == xml[i])
                           && (forall i :: 0 <= i < |xml| && xml[i] == '\n' ==> r.value[i] == ' ')
  {
    match Document(p)
    case Failure(e) => Failure(e)
    case Success(d) => Success(Text.ReplaceNewlines(Xml.Serialize(d)))
  }

  /** The operation element of a successful void. */
  function Operation(p: AR.Parameters): Xml.Node
    requires Document(p).Success?
  {
    Document(p).value.root.children[2]
  }

  /** A void sends `order_id`, `comp_amount` 0.00, `txn_number`, `crypt_type`, `cust_id`,
      `dynamic_descriptor` `void`, in that order, under `completion`; the three transaction
      fields come from the receipt of the parsed reference. */
  lemma CompletionShape(p: AR.Parameters)
    requires Document(p).Success?
    ensures p.transactionReference.Some? && Xml.ParseDocument(p.transactionReference.value).Some?
    ensures var reference := Xml.ParseDocument(p.transactionReference.value).value;
            var op := Operation(p);
            && op.name == "completion"
            && op.children == [
                 Xml.Leaf("order_id", Reference.Field(reference, "ReceiptId")),
                 Xml.Leaf("comp_amount", "0.00"),
                 Xml.Leaf("txn_number", Reference.Field(reference, "TransID")),
                 Xml.Leaf("crypt_type", AR.OptionalIntText(p.cryptType)),
                 Xml.Leaf("cust_id", Reference.Field(reference, "ReferenceNum")),
                 Xml.Leaf("dynamic_descriptor", "void")]
  {
  }

  /** With a parseable reference the void is the `completion` of the parsed reference. */
  lemma Built(p: AR.Parameters)
    requires p.transactionReference.Some? && Xml.ParseDocument(p.transactionReference.value).Some?
    ensures Document(p) == Success(AR.RequestDocument(p, CompletionElement(p, Xml.ParseDocument(p.transactionReference.value).value)))
  {
  }

  /** The amount parameter plays no part: a void succeeds or fails, and sends the same text,
      whatever amount is set. */
  lemma AmountIgnored(p: AR.Parameters, amount: Option<int>)
    ensures GetData(p.(amount := amount)) == GetData(p)
  {
    var q := p.(amount := amount);
    assert Validated(q) == Validated(p);
    if Document(p).Success? {
      var reference := Xml.ParseDocument(p.transactionReference.value).value;
      assert CompletionElement(q, reference) == CompletionElement(p, reference);
    }
  }

  /** The empty reference passes validation, loads as `false`, and fails on reading its
      `receipt`: not a request error, and nothing is produced. */
  lemma EmptyReferenceReadsFalse(p: AR.Parameters)
    requires p.transactionReference == Some("")
    ensures GetData(p) == Failure(V.ReceiptOfFalse)
    ensures !GetData(p).error.IsInvalidRequest()
  {
  }

  /** The reference `test` is not XML: the void fails with an `InvalidRequestException` and
      produces nothing. */
  lemma TestReferenceRejected(p: AR.Parameters)
    requires p.transactionReference == Some("test")
    ensures GetData(p) == Failure(V.InvalidTransactionReference)
    ensures GetData(p).error.IsInvalidRequest()
  {
    Reference.TestIsRejected();
  }
}

=== FILE: wrappers.dfy ===
/** Failure-compatible wrappers shared by the whole model.
- Option<T>: a value that may be absent (PHP `null`)
- Result<T, E>: a value or the error that was raised instead
 */
module Wrappers {

  datatype Option<+T> = None | Some(value: T) {

    predicate IsFailure() {
      None?
    }

    function PropagateFailure<U>(): Option<U>
      requires None?
    {
      None
    }

    function Extract(): T
      requires Some?
    {
      value
    }

    /** The value, or `default` when absent. */
    function GetOr(default: T): T {
      match this
      case Some(v) => v
      case None => default
    }
  }

  datatype Result<+T, +E> = Success(value: T) | Failure(error: E) {

    predicate IsFailure() {
      Failure?
    }

    function PropagateFailure<U>(): Result<U, E>
      requires Failure?
    {
      Failure(error)
    }

    function Extract(): T
      requires Success?
    {
      value
    }
  }
}

=== FILE: xml.dfy ===
/** The slice of XML the adapter reads and writes: elements with character content and child
    elements, a `<?...?>` declaration, the three predefined escapes `&amp;` `&lt;` `&gt;`.
    On this slice `Serialize` stands in for SimpleXML's `asXML()` and `ParseDocument` for
    `simplexml_load_string`, with `None` for a string that does not parse. */
module Xml {
  import opened Wrappers
  import Text

  /** An element: its name, its character content (all its text pieces joined, which is what a
      PHP `(string)` cast of the element yields) and its child elements in document order. */
  datatype Node = Node(name: string, text: string, children: seq<Node>)

  /** A document: the body of its `<?...?>` declaration and its root element. */
  datatype Document = Document(declaration: string, root: Node)

  /** The declaration `asXML()` writes for a document that was parsed without one. */
  const DefaultDeclaration: string := "xml version=\"1.0\""

  predicate IsNameChar(c: char) {
    'a' <= c <= 'z' || 'A' <= c <= 'Z' || '0' <= c <= '9' || c == '_' || c == '-' || c == '.' || c == ':'
  }

  predicate IsName(s: string) {
    |s| > 0 && forall i :: 0 <= i < |s| ==> IsNameChar(s[i])
  }

  /** Every element name in the tree is a legal name. */
  predicate WellFormed(n: Node)
    decreases n
  {
    IsName(n.name) && forall i :: 0 <= i < |n.children| ==> WellFormed(n.children[i])
  }

  predicate WellFormedDocument(d: Document) {
    '?' !in d.declaration && WellFormed(d.root)
  }

  /** An element is well formed when its name is legal and its children are well formed. */
  lemma NodeWellFormed(name: string, text: string, kids: seq<Node>)
    requires IsName(name)
    requires forall i :: 0 <= i < |kids| ==> WellFormed(kids[i])
    ensures WellFormed(Node(name, text, kids))
  {
  }

  /** A leaf with a legal name is well formed. */
  lemma LeafWellFormed(name: string, text: string)
    requires IsName(name)
    ensures WellFormed(Node(name, text, []))
  {
  }

  /** A leaf element `<name>value</name>`, as `addChild(name, value)` creates it. */
  function Leaf(name: string, value: string): (n: Node)
    ensures n.children == []
  {
    Node(name, value, [])
  }

  /** The first child of `ns` named `name`, as the SimpleXML property read `$e->name` finds it. */
  function FindChild(ns: seq<Node>, name: string): (r: Option<Node>)
    ensures r.None? <==> forall i :: 0 <= i < |ns| ==> ns[i].name != name
    ensures r.Some? ==> exists i :: 0 <= i < |ns| && ns[i] == r.value && ns[i].name == name
                                    && forall j :: 0 <= j < i ==> ns[j].name != name
  {
    if ns == [] then None
    else if ns[0].name == name then Some(ns[0])
    else
      var r := FindChild(ns[1..], name);
      assert forall i :: 1 <= i < |ns| ==> ns[i] == ns[1..][i - 1];
      r
  }

  // ---------------------------------------------------------------- escaping

  function EscapeChar(c: char): string {
    if c == '&' then "&amp;" else if c == '<' then "&lt;" else if c == '>' then "&gt;" else [c]
  }

  /** Character content as it is written inside an element. */
  function Escape(s: string): (r: string)
    ensures '<' !in r
    ensures s == [] <==> r == []
  {
    if s == [] then [] else EscapeChar(s[0]) + Escape(s[1..])
  }

  /** Character content as it is read back; `None` on an entity reference the parser does not
      know. */
  function Unescape(s: string): Option<string> {
    if s == [] then Some([])
    else if s[0] != '&' then
      var t :- Unescape(s[1..]); Some([s[0]] + t)
    else if "&amp;" <= s then
      var t :- Unescape(s[5..]); Some("&" + t)
    else if "&lt;" <= s then
      var t :- Unescape(s[4..]); Some("<" + t)
    else if "&gt;" <= s then
      var t :- Unescape(s[4..]); Some(">" + t)
    else if "&quot;" <= s then
      var t :- Unescape(s[6..]); Some("\"" + t)
    else if "&apos;" <= s then
      var t :- Unescape(s[6..]); Some("'" + t)
    else None
  }

  lemma {:induction false} UnescapeEscape(s: string)
    ensures Unescape(Escape(s)) == Some(s)
  {
    if s != [] {
      var rest := Escape(s[1..]);
      UnescapeEscape(s[1..]);
      assert Escape(s) == EscapeChar(s[0]) + rest;
      var e := EscapeChar(s[0]) + rest;
      assert [s[0]] + s[1..] == s;
      if s[0] == '&' {
        assert "&amp;" <= e && e[5..] == rest;
      } else if s[0] == '<' {
        assert e[1] == 'l' && "&lt;" <= e && e[4..] == rest;
      } else if s[0] == '>' {
        assert e[1] == 'g' && "&gt;" <= e && e[4..] == rest;
      } else {
        assert e[0] == s[0] && e[1..] == rest;
      }
    }
  }

  lemma {:induction false} DeleteNewlinesEscape(s: string)
    ensures Text.DeleteNewlines(Escape(s)) == Escape(Text.DeleteNewlines(s))
  {
    if s != [] {
      var c, rest := s[0], s[1..];
      DeleteNewlinesEscape(rest);
      EscapeFirst(s);
      Text.DeleteNewlinesAppend(EscapeChar(c), Escape(rest));
      DeleteNewlinesEscapeChar(c);
      DeleteNewlinesFirst(s);
      if c != '\n' {
        EscapeFirst([c] + Text.DeleteNewlines(rest));
      }
    }
  }

  lemma EscapeFirst(s: string)
    requires s != []
    ensures Escape(s) == EscapeChar(s[0]) + Escape(s[1..])
  {
  }

  lemma DeleteNewlinesFirst(s: string)
    requires s != []
    ensures var t := Text.DeleteNewlines(s[1..]);
            Text.DeleteNewlines(s) == if s[0] == '\n' then t else [s[0]] + t
    ensures s[0] != '\n' ==> ([s[0]] + Text.DeleteNewlines(s[1..]))[1..] == Text.DeleteNewlines(s[1..])
  {
  }

  lemma DeleteNewlinesEscapeChar(c: char)
    ensures Text.DeleteNewlines(EscapeChar(c)) == if c == '\n' then [] else EscapeChar(c)
  {
    if c == '\n' {
      assert EscapeChar(c) == ['\n'];
      assert Text.DeleteNewlines(['\n']) == Text.DeleteNewlines([]);
    } else {
      assert '\n' !in EscapeChar(c);
    }
  }

  // ---------------------------------------------------------------- rendering

  /** The markup of an element: `<name/>` when it has neither text nor children, otherwise
      `<name>text children</name>`. */
  function Render(n: Node): string
    decreases n, 1
  {
    if n.text == [] && n.children == [] then EmptyTag(n.name)
    else OpenTag(n.name) + (Escape(n.text) + RenderAll(n.children)) + CloseTag(n.name)
  }

  function EmptyTag(name: string): string {
    "<" + name + "/>"
  }

  function OpenTag(name: string): string {
    "<" + name + ">"
  }

  function CloseTag(name: string): string {
    "</" + name + ">"
  }

  function RenderAll(ns: seq<Node>): string
    decreases ns, 0
  {
    if ns == [] then [] else Render(ns[0]) + RenderAll(ns[1..])
  }

  /** `asXML()`: the declaration, a line feed, the root element, a line feed. */
  function Serialize(d: Document): (r: string)
    ensures "<?" + d.declaration + "?>\n" <= r
    ensures |r| == |d.declaration| + |Render(d.root)| + 6 && r[|r| - 1] == '\n'
    ensures r[|d.declaration| + 5..|r| - 1] == Render(d.root)
  {
    "<?" + d.declaration + "?>" + "\n" + Render(d.root) + "\n"
  }

  // ---------------------------------------------------------------- parsing

  predicate IsSpace(c: char) {
    c == ' ' || c == '\t' || c == '\r' || c == '\n'
  }

  function SkipSpace(s: string): (r: string)
    ensures |r| <= |s|
    ensures r == [] || !IsSpace(r[0])
    ensures s == [] || !IsSpace(s[0]) ==> r == s
  {
    if s != [] && IsSpace(s[0]) then SkipSpace(s[1..]) else s
  }

  /** The longest prefix of `s` made of name characters. */
  function SpanName(s: string): (r: string)
    ensures r <= s
    ensures forall i :: 0 <= i < |r| ==> IsNameChar(r[i])
    ensures |r| == |s| || !IsNameChar(s[|r|])
  {
    if s != [] && IsNameChar(s[0]) then [s[0]] + SpanName(s[1..]) else []
  }

  /** The longest prefix of `s` that does not contain `c`. */
  function SpanWithout(s: string, c: char): (r: string)
    ensures r <= s && c !in r
    ensures |r| == |s| || s[|r|] == c
  {
    if s != [] && s[0] != c then [s[0]] + SpanWithout(s[1..], c) else []
  }

  /** One element at the start of `s`, and what follows it. */
  function ParseElement(s: string): (r: Option<(Node, string)>)
    ensures r.Some? ==> |r.value.1| < |s| && IsName(r.value.0.name)
    decreases |s|, 0
  {
    if |s| == 0 || s[0] != '<' then None
    else
      var name := SpanName(s[1..]);
      var rest := s[1 + |name|..];
      if |name| == 0 then None
      else if "/>" <= rest then Some((Node(name, [], []), rest[2..]))
      else if |rest| == 0 || rest[0] != '>' then None
      else
        match ParseContent(rest[1..])
        case None => None
        case Some(content) =>
          var close := "</" + name + ">";
          if close <= content.2 then Some((Node(name, content.0, content.1), content.2[|close|..]))
          else None
  }

  /** The content of an element up to (not including) its closing tag: its joined text, its
      child elements, and the rest of the input, which starts with `</`. */
  function ParseContent(s: string): (r: Option<(string, seq<Node>, string)>)
    ensures r.Some? ==> |r.value.2| <= |s|
    decreases |s|, 1
  {
    if |s| == 0 then None
    else if s[0] == '<' then
      if |s| > 1 && s[1] == '/' then Some(([], [], s))
      else
        match ParseElement(s)
        case None => None
        case Some(first) =>
          match ParseContent(first.1)
          case None => None
          case Some(more) => Some((more.0, [first.0] + more.1, more.2))
    else
      var raw := SpanWithout(s, '<');
      match Unescape(raw)
      case None => None
      case Some(t) =>
        match ParseContent(s[|raw|..])
        case None => None
        case Some(more) => Some((t + more.0, more.1, more.2))
  }

  /** An optional `<?...?>` declaration at the start of `s`, and what follows it. */
  function ParseDeclaration(s: string): Option<(string, string)> {
    if "<?" <= s then
      var body := SpanWithout(s[2..], '?');
      var rest := s[2 + |body|..];
      if "?>" <= rest then Some((body, rest[2..])) else None
    else Some((DefaultDeclaration, s))
  }

  /** `simplexml_load_string`: optional whitespace and declaration, one root element, optional
      trailing whitespace; `None` for anything else. */
  function ParseDocument(s: string): (r: Option<Document>)
    ensures SkipSpace(s) == [] || SkipSpace(s)[0] != '<' ==> r.None?
    ensures r.Some? ==> '?' !in r.value.declaration && IsName(r.value.root.name)
  {
    match ParseDeclaration(SkipSpace(s))
    case None => None
    case Some(declared) =>
      match ParseElement(SkipSpace(declared.1))
      case None => None
      case Some(element) =>
        if SkipSpace(element.1) == [] then Some(Document(declared.0, element.0)) else None
  }

  // ---------------------------------------------------------------- line feeds

  /** The tree with every line feed deleted from its character content. */
  function StripNode(n: Node): (r: Node)
    ensures r.name == n.name && |r.children| == |n.children|
    decreases n, 1
  {
    Node(n.name, Text.DeleteNewlines(n.text), StripAll(n.children))
  }

  function StripAll(ns: seq<Node>): (r: seq<Node>)
    ensures |r| == |ns|
    ensures forall i :: 0 <= i < |ns| ==> r[i] == StripNode(ns[i])
    decreases ns, 0
  {
    if ns == [] then [] else [StripNode(ns[0])] + StripAll(ns[1..])
  }

  function StripDocument(d: Document): Document {
    Document(Text.DeleteNewlines(d.declaration), StripNode(d.root))
  }

  /** No character content anywhere in the tree holds a line feed. */
  predicate NoNewlines(n: Node)
    decreases n
  {
    '\n' !in n.text && forall i :: 0 <= i < |n.children| ==> NoNewlines(n.children[i])
  }

  lemma {:induction false} StripNodeIdentity(n: Node)
    requires NoNewlines(n)
    ensures StripNode(n) == n
    decreases n
  {
    forall i | 0 <= i < |n.children| ensures StripNode(n.children[i]) == n.children[i] {
      StripNodeIdentity(n.children[i]);
    }
    assert StripAll(n.children) == n.children;
  }

  /** `FindChild` returns the element at the first index carrying the name. */
  lemma {:induction false} FindChildAt(ns: seq<Node>, name: string, i: nat)
    requires i < |ns| && ns[i].name == name
    requires forall j :: 0 <= j < i ==> ns[j].name != name
    ensures FindChild(ns, name) == Some(ns[i])
  {
    if i > 0 {
      FindChildAt(ns[1..], name, i - 1);
    }
  }

  /** Looking a child up commutes with stripping line feeds. */
  lemma FindChildStrip(n: Node, name: string)
    ensures FindChild(StripNode(n).children, name) ==
            (match FindChild(n.children, name) case None => None case Some(c) => Some(StripNode(c)))
  {
    var cs := n.children;
    var ss := StripNode(n).children;
    match FindChild(cs, name)
    case None =>
      assert forall i :: 0 <= i < |ss| ==> ss[i].name == cs[i].name;
    case Some(c) =>
      var i :| 0 <= i < |cs| && cs[i] == c && cs[i].name == name && forall j :: 0 <= j < i ==> cs[j].name != name;
      FindChildAt(ss, name, i);
  }

  // ---------------------------------------------------------------- round trip

  lemma TagsHaveNoNewline(name: string)
    requires IsName(name)
    ensures '\n' !in EmptyTag(name) && '\n' !in OpenTag(name) && '\n' !in CloseTag(name)
  {
    forall i | 0 <= i < |name| ensures name[i] != '\n' {
      assert IsNameChar(name[i]);
    }
  }

  /** The shape of an element's markup once line feeds are deleted. */
  lemma {:induction false} DeleteNewlinesRender(n: Node)
    requires IsName(n.name)
    ensures Text.DeleteNewlines(Render(n)) ==
            if n.text == [] && n.children == [] then EmptyTag(n.name)
            else OpenTag(n.name) + (Escape(Text.DeleteNewlines(n.text))
                 + Text.DeleteNewlines(RenderAll(n.children))) + CloseTag(n.name)
  {
    TagsHaveNoNewline(n.name);
    if !(n.text == [] && n.children == []) {
      var body := Escape(n.text) + RenderAll(n.children);
      Text.DeleteNewlinesAppend(OpenTag(n.name) + body, CloseTag(n.name));
      Text.DeleteNewlinesAppend(OpenTag(n.name), body);
      Text.DeleteNewlinesAppend(Escape(n.text), RenderAll(n.children));
      DeleteNewlinesEscape(n.text);
    }
  }

  lemma {:induction false} DeleteNewlinesRenderAll(ns: seq<Node>)
    requires ns != []
    ensures Text.DeleteNewlines(RenderAll(ns)) ==
            Text.DeleteNewlines(Render(ns[0])) + Text.DeleteNewlines(RenderAll(ns[1..]))
  {
    Text.DeleteNewlinesAppend(Render(ns[0]), RenderAll(ns[1..]));
  }

  lemma {:induction false} SpanNameOfName(name: string, rest: string)
    requires forall i :: 0 <= i < |name| ==> IsNameChar(name[i])
    requires rest == [] || !IsNameChar(rest[0])
    ensures SpanName(name + rest) == name
  {
    if name == [] {
      assert name + rest == rest;
    } else {
      assert (name + rest)[1..] == name[1..] + rest;
      SpanNameOfName(name[1..], rest);
    }
  }

  lemma {:induction false} SpanWithoutPrefix(a: string, b: string, c: char)
    requires c !in a
    requires b != [] && b[0] == c
    ensures SpanWithout(a + b, c) == a
  {
    if a != [] {
      assert (a + b)[1..] == a[1..] + b;
      SpanWithoutPrefix(a[1..], b, c);
    } else {
      assert a + b == b;
    }
  }

  lemma ParseEmptyTag(name: string, rest: string)
    requires IsName(name)
    ensures ParseElement(EmptyTag(name) + rest) == Some((Node(name, [], []), rest))
  {
    var s := EmptyTag(name) + rest;
    assert s[1..] == name + ("/>" + rest);
    SpanNameOfName(name, "/>" + rest);
    assert s[1 + |name|..] == "/>" + rest;
  }

  lemma ParseOpenTag(name: string, after: string, text: string, kids: seq<Node>, rest: string)
    requires IsName(name)
    requires ParseContent(after) == Some((text, kids, CloseTag(name) + rest))
    ensures ParseElement(OpenTag(name) + after) == Some((Node(name, text, kids), rest))
  {
    var s := OpenTag(name) + after;
    var tail := ">" + after;
    assert s[1..] == name + tail;
    SpanNameOfName(name, tail);
    assert SpanName(s[1..]) == name;
    assert s[1 + |name|..] == tail;
    assert tail[0] == '>' && !("/>" <= tail);
    assert tail[1..] == after;
    var close := CloseTag(name);
    assert close == "</" + name + ">";
    assert close <= close + rest;
    assert (close + rest)[|close|..] == rest;
  }

  lemma StrippedElementStart(n: Node)
    requires WellFormed(n)
    ensures |Text.DeleteNewlines(Render(n))| > 1
    ensures Text.DeleteNewlines(Render(n))[0] == '<'
    ensures IsNameChar(Text.DeleteNewlines(Render(n))[1])
  {
    DeleteNewlinesRender(n);
  }

  lemma Regroup(o: string, e: string, a: string, c: string, r: string)
    ensures o + (e + a) + c + r == o + (e + (a + (c + r)))
  {
  }

  /** Parsing an element's markup, line feeds deleted, yields the element with line feeds
      deleted from its text, and leaves what follows untouched. */
  lemma {:induction false} ParseStrippedElement(n: Node, rest: string)
    requires WellFormed(n)
    ensures ParseElement(Text.DeleteNewlines(Render(n)) + rest) == Some((StripNode(n), rest))
    decreases n, 2
  {
    if n.text == [] && n.children == [] {
      DeleteNewlinesRender(n);
      ParseEmptyTag(n.name, rest);
    } else {
      var t := Text.DeleteNewlines(n.text);
      var all := Text.DeleteNewlines(RenderAll(n.children));
      var close := CloseTag(n.name);
      var after := Escape(t) + (all + (close + rest));
      ParseStrippedContent(n.text, n.children, close + rest);
      StrippedMarkup(n, rest);
      ParseOpenTag(n.name, after, t, StripAll(n.children), rest);
    }
  }

  lemma StrippedMarkup(n: Node, rest: string)
    requires IsName(n.name)
    requires !(n.text == [] && n.children == [])
    ensures Text.DeleteNewlines(Render(n)) + rest ==
            OpenTag(n.name) + (Escape(Text.DeleteNewlines(n.text))
            + (Text.DeleteNewlines(RenderAll(n.children)) + (CloseTag(n.name) + rest)))
  {
    DeleteNewlinesRender(n);
    Regroup(OpenTag(n.name), Escape(Text.DeleteNewlines(n.text)),
            Text.DeleteNewlines(RenderAll(n.children)), CloseTag(n.name), rest);
  }

  lemma {:induction false} ParseStrippedContent(text: string, kids: seq<Node>, tail: string)
    requires forall i :: 0 <= i < |kids| ==> WellFormed(kids[i])
    requires "</" <= tail
    ensures ParseContent(Escape(Text.DeleteNewlines(text)) + (Text.DeleteNewlines(RenderAll(kids)) + tail))
            == Some((Text.DeleteNewlines(text), StripAll(kids), tail))
    decreases kids, 1
  {
    var t := Text.DeleteNewlines(text);
    var e := Escape(t);
    var x := Text.DeleteNewlines(RenderAll(kids)) + tail;
    ParseStrippedChildren(kids, tail);
    if e == [] {
      assert e + x == x;
    } else {
      StrippedChildrenStart(kids, tail);
      SpanWithoutPrefix(e, x, '<');
      UnescapeEscape(t);
      var s := e + x;
      assert s[0] == e[0];
      assert s[|e|..] == x;
      assert t + [] == t;
    }
  }

  /** Stripped markup of a child list followed by a closing tag starts with `<`. */
  lemma StrippedChildrenStart(kids: seq<Node>, tail: string)
    requires forall i :: 0 <= i < |kids| ==> WellFormed(kids[i])
    requires "</" <= tail
    ensures |Text.DeleteNewlines(RenderAll(kids)) + tail| > 0
    ensures (Text.DeleteNewlines(RenderAll(kids)) + tail)[0] == '<'
  {
    if kids != [] {
      StrippedElementStart(kids[0]);
      DeleteNewlinesRenderAll(kids);
    }
  }

  lemma {:induction false} ParseStrippedChildren(kids: seq<Node>, tail: string)
    requires forall i :: 0 <= i < |kids| ==> WellFormed(kids[i])
    requires "</" <= tail
    ensures ParseContent(Text.DeleteNewlines(RenderAll(kids)) + tail) == Some(([], StripAll(kids), tail))
    decreases kids, 0
  {
    if kids == [] {
      assert Text.DeleteNewlines(RenderAll(kids)) + tail == tail;
    } else {
      var first := Text.DeleteNewlines(Render(kids[0]));
      var more := Text.DeleteNewlines(RenderAll(kids[1..])) + tail;
      StrippedChildrenSplit(kids, tail);
      StrippedElementStart(kids[0]);
      ParseStrippedElement(kids[0], more);
      ParseStrippedChildren(kids[1..], tail);
      ParseContentLeadingElement(first, more, StripNode(kids[0]), [], StripAll(kids[1..]), tail);
      assert [StripNode(kids[0])] + StripAll(kids[1..]) == StripAll(kids);
    }
  }

  lemma StrippedChildrenSplit(kids: seq<Node>, tail: string)
    requires kids != []
    ensures Text.DeleteNewlines(RenderAll(kids)) + tail
         == Text.DeleteNewlines(Render(kids[0])) + (Text.DeleteNewlines(RenderAll(kids[1..])) + tail)
  {
    DeleteNewlinesRenderAll(kids);
    AppendTail(Text.DeleteNewlines(RenderAll(kids)), Text.DeleteNewlines(Render(kids[0])),
               Text.DeleteNewlines(RenderAll(kids[1..])), tail);
  }

  lemma AppendTail(whole: string, first: string, others: string, tail: string)
    requires whole == first + others
    ensures whole + tail == first + (others + tail)
  {
  }

  /** Content that starts with an element continues with whatever content follows it. */
  lemma ParseContentLeadingElement(first: string, more: string, node: Node,
                                   text: string, kids: seq<Node>, tail: string)
    requires |first| > 1 && first[0] == '<' && first[1] != '/'
    requires ParseElement(first + more) == Some((node, more))
    requires ParseContent(more) == Some((text, kids, tail))
    ensures ParseContent(first + more) == Some((text, [node] + kids, tail))
  {
    var s := first + more;
    assert s[0] == '<' && s[1] == first[1];
  }

  /** The single-line form of a serialized document parses back to the document with line feeds
      deleted from its text. */
  lemma ParseStrippedDocument(d: Document)
    requires WellFormedDocument(d)
    ensures ParseDocument(Text.DeleteNewlines(Serialize(d))) == Some(StripDocument(d))
  {
    var decl := Text.DeleteNewlines(d.declaration);
    var body := Text.DeleteNewlines(Render(d.root));
    var s := Text.DeleteNewlines(Serialize(d));
    DeleteNewlinesSerialize(d);
    StrippedElementStart(d.root);
    ParseDeclarationOf(decl, body);
    ParseStrippedElement(d.root, []);
    assert body + [] == body;
    assert SkipSpace(s) == s;
    assert SkipSpace(body) == body;
  }

  lemma ParseDeclarationOf(decl: string, body: string)
    requires '?' !in decl
    requires body != [] && body[0] == '<'
    ensures ParseDeclaration("<?" + (decl + ("?>" + body))) == Some((decl, body))
  {
    var s := "<?" + (decl + ("?>" + body));
    SpanWithoutPrefix(decl, "?>" + body, '?');
    assert s[2..] == decl + ("?>" + body);
    assert s[2 + |decl|..] == "?>" + body;
  }

  lemma DeleteNewlinesSerialize(d: Document)
    ensures Text.DeleteNewlines(Serialize(d)) ==
            "<?" + (Text.DeleteNewlines(d.declaration) + ("?>" + Text.DeleteNewlines(Render(d.root))))
  {
    assert Serialize(d) == "<?" + (d.declaration + ("?>" + ("\n" + (Render(d.root) + "\n"))));
    DeleteNewlinesFrame(d.declaration, Render(d.root));
  }

  /** Deleting the line feeds of the serialised frame leaves the declaration and root text. */
  lemma DeleteNewlinesFrame(decl: string, root: string)
    ensures Text.DeleteNewlines("<?" + (decl + ("?>" + ("\n" + (root + "\n"))))) ==
            "<?" + (Text.DeleteNewlines(decl) + ("?>" + Text.DeleteNewlines(root)))
  {
    assert Text.DeleteNewlines("\n") == [];
    Text.DeleteNewlinesAppend(root, "\n");
    assert Text.DeleteNewlines(root + "\n") == Text.DeleteNewlines(root);
    Text.DeleteNewlinesAppend("\n", root + "\n");
    Text.DeleteNewlinesAppend("?>", "\n" + (root + "\n"));
    Text.DeleteNewlinesAppend(decl, "?>" + ("\n" + (root + "\n")));
    Text.DeleteNewlinesAppend("<?", decl + ("?>" + ("\n" + (root + "\n"))));
  }

  /** Whatever the parser accepts is well formed. */
  lemma {:induction false} ParsedElementWellFormed(s: string)
    ensures ParseElement(s).Some? ==> WellFormed(ParseElement(s).value.0)
    decreases |s|, 0
  {
    if |s| > 0 && s[0] == '<' {
      var name := SpanName(s[1..]);
      var rest := s[1 + |name|..];
      if |name| > 0 && !("/>" <= rest) && |rest| > 0 && rest[0] == '>' {
        ParsedContentWellFormed(rest[1..]);
      }
    }
  }

  lemma {:induction false} ParsedContentWellFormed(s: string)
    ensures ParseContent(s).Some? ==>
              forall i :: 0 <= i < |ParseContent(s).value.1| ==> WellFormed(ParseContent(s).value.1[i])
    decreases |s|, 1
  {
    if |s| > 0 {
      if s[0] == '<' {
        if !(|s| > 1 && s[1] == '/') {
          ParsedElementWellFormed(s);
          if ParseElement(s).Some? {
            ParsedContentWellFormed(ParseElement(s).value.1);
          }
        }
      } else {
        var raw := SpanWithout(s, '<');
        ParsedContentWellFormed(s[|raw|..]);
      }
    }
  }

  lemma ParsedDocumentWellFormed(s: string)
    ensures ParseDocument(s).Some? ==> WellFormedDocument(ParseDocument(s).value)
  {
    match ParseDeclaration(SkipSpace(s))
    case None =>
    case Some(declared) =>
      ParsedElementWellFormed(SkipSpace(declared.1));
  }
}
